=== FILE: README.md ===
# Event catalogue store — a Dafny model

A model of the event-management front end: the event store that keeps
the `events` and `registrations` lists, and the UI logic around it. Every
operation is a pure function from state to state. Each function's
contract says what the code does, and lemmas prove what it keeps.

**The store** (`lib/event-context.tsx`, module `Store`):
- the local transitions:
  - `addEvent`, which appends a drafted event;
  - `updateEvent`, which overlays a partial event;
  - `deleteEvent`, which removes the event and its registrations;
  - `registerForEvent`, which checks capacity and duplicates, then
    counts the new registration;
  - `cancelRegistration`.
- the four read queries;
- the switch between local and backend mode (`loadEvents`, the two
  scoped reloads, the mount effect);
- the backend branches of the commands, where each backend call is an
  abstract outcome.

**Backend translation** (modules `Categories`, `Backend`): the category
normaliser `convertCategory`, and `convertBackendEvent`, which turns a
backend record into an `Event`. Its organizer is either a bare id or an
embedded record. Its capacity is synthesised as the registered count
plus 100. A date that `new Date` cannot parse makes the conversion
throw; the model returns `None` there, so a reload whose list holds such
a date behaves as a failed call, and `addEvent` rejects such a created
event.

**Store invariants** (module `Invariants`). Five invariants, each with
its own preservation lemma for each transition, requiring that
invariant and what the transition itself needs. The one exception is
`Invariants.AddKeepsAccounted`, which also requires every registration
to name an event, so that the fresh id has no registrations:
- event ids unique;
- `0 <= registered <= capacity`;
- at most one active registration per (event, user);
- every registration naming an event;
- each count equal to its number of active registrations ("accounted").

What is and is not kept:
- Register, delete and add keep each of the five. Add needs a fresh id
  and a non-negative capacity.
- Cancel keeps the first four for any user. It keeps the count
  invariant only when the user was registered (see below).
- Reloads keep the capacity bound.
- `updateEvent` accepts any partial event, so it keeps the invariants
  only for some patches:
  - unique ids and references need the patch to set no id;
  - the count invariant also needs it to set no count;
  - the capacity bound holds exactly when every patched event still
    fits (`Invariants.UpdateWithinCapacityIff`).
- The count invariant does not hold on every local-mode store the
  program reaches:
  - a seed catalogue may carry counts with no registrations behind them;
  - a `loadEvents` that converts followed by a failed one leaves the
    backend's counts in a local-mode store with no registrations
    (`Invariants.FallbackKeepsBackendEvents`).

  The per-invariant lemmas therefore do not assume it.

**The UI pieces**:
- the create-event form (`EventForm`): validation, the comma-separated
  tag parser, the draft handed to `addEvent`, and the form after a
  submit;
- the browse view (`Browse`): case-insensitive search, category choice,
  and handlers guarded by the signed-in user;
- the organizer dashboard (`Dashboard`): totals, fill rate, and the
  recent strip;
- the attendee's own list (`MyRegistrations`): the registrations joined
  to events, and the cancel handler;
- the session (`Auth`): the role mapping, sign-in, sign-up, sign-out,
  and the storage copy;
- the sign-up checks of the login page (`LoginPage`).

**Strings** (module `Text`) are `seq<char>`. `trim`, `toLowerCase`,
`includes`, `split` and join are defined there with their contracts.
The round trip `Split(Join(parts)) == parts` is proved.

**Where the model follows the code rather than the obvious intent:**
- `deleteEvent` physically removes the event's registrations
  (`lib/event-context.tsx:181`); it does not mark them cancelled.
  `Store.DeleteEventLocal` does the same.
- `cancelRegistration` decrements the event's count, clamped at zero,
  whether or not the user held an active registration
  (`lib/event-context.tsx:234-240`). `Store.CancelRegistration` does the
  same. `Invariants.CancelWithoutRegistrationMiscounts` exhibits the
  consequence: one user's cancel for an event they never joined
  uncounts another user's place. `Invariants.CancelPreservesValid`
  accordingly requires the user to be registered.

## Model

| member | source | states |
|---|---|---|
| Types.CategoriesEnumerated | lib/types.ts:29-36 | the category type has exactly seven distinct variants, listed in declaration order |
| Text.Trim | components/events/create-event-form.tsx:80 | `trim` yields a string with no surrounding white space, empty exactly when the input is blank |
| Text.TrimInfix | components/events/create-event-form.tsx:80 | the trimmed string is a slice of the input with only white space cut from either end |
| Text.TrimKeepsChars | components/events/create-event-form.tsx:80 | trimming introduces no new characters |
| Text.TrimTrimmed | components/events/create-event-form.tsx:80 | trimming an already trimmed string changes nothing |
| Text.ToLower | components/dashboard/browse-events.tsx:35-39 | `toLowerCase` keeps the length, maps each character, and yields a lower-case string |
| Text.ToLowerOfLower | components/dashboard/browse-events.tsx:35-39 | lower-casing a lower-case string changes nothing |
| Text.ContainsIffOccurs | components/dashboard/browse-events.tsx:35 | `includes` holds exactly when the part occurs at some index |
| Text.Split | components/events/create-event-form.tsx:79 | `split(",")` yields at least one piece, none holds the separator, and joining the pieces gives the input back |
| Text.SplitJoin | components/events/create-event-form.tsx:79 | separator-free pieces joined and split again come back unchanged |
| Seqs.Filter | lib/event-context.tsx:252 | `filter` keeps an in-order subsequence holding exactly the elements that pass |
| Seqs.FilterCounts | lib/event-context.tsx:252 | `filter` keeps every passing element exactly as often as the input holds it, and no failing one |
| Categories.ConvertCategory | lib/event-context.tsx:37-49 | total; the lower-cased input when it names a category, `other` when it names none |
| Categories.CategoryNamesDistinct | lib/event-context.tsx:38-46 | the seven accepted names are distinct and lower case |
| Categories.ConvertCategoryName | lib/event-context.tsx:37-49 | a category's name, in any letter case, converts back to that category |
| Backend.ConvertBackendEvent | lib/event-context.tsx:52-70 | throws (`None`) exactly when the date does not parse; otherwise: fields copied; the date is the parsed calendar day; category normalised; registered is the number of registered users or 0; capacity is exactly 100 above it; organizer id from either organizer shape; name "Organizer" for a bare id or an empty embedded name, otherwise the embedded name; price 0 when absent; no tags |
| Backend.ConvertAll | lib/event-context.tsx:91 | the `map` throws exactly when some date does not parse; otherwise one converted event per backend event, in order |
| Store.GetEventById | lib/event-context.tsx:245-248 | `find`: none exactly when no event has the id, otherwise the first event with it |
| Store.GetEventsByOrganizer | lib/event-context.tsx:250-254 | exactly the organizer's events, in catalogue order |
| Store.OrganizerEventCounts | lib/event-context.tsx:250-254 | each of the organizer's events appears as often as in the catalogue, other events not at all |
| Store.GetUserRegistrations | lib/event-context.tsx:256-262 | exactly the user's non-cancelled registrations, in order |
| Store.UserRegistrationCounts | lib/event-context.tsx:256-262 | each of the user's active registrations appears as often as in the full list, every other registration not at all |
| Store.RegisteredIffListed | lib/event-context.tsx:256-273 | `isUserRegistered` holds exactly when the user's registration list names the event |
| Store.AddEventLocal | lib/event-context.tsx:150-158 | appends exactly one event carrying the draft, the given id, no registrations and status upcoming; everything else unchanged |
| Store.OverlayLaws | lib/event-context.tsx:165 | overlaying the empty patch changes nothing; overlaying a patch twice equals overlaying it once |
| Store.UpdateEvent | lib/event-context.tsx:163-167 | events with the id get the patch overlaid, all others and the order stay, registrations and mode untouched |
| Store.UpdateUnknownIsNoop | lib/event-context.tsx:163-167 | an update for an id no event carries changes nothing |
| Store.UpdateIdempotent | lib/event-context.tsx:163-167 | repeating an update changes nothing more |
| Store.DeleteEventLocal | lib/event-context.tsx:179-182 | the event and every registration for it are gone; all other entries stay, in order |
| Store.DeleteEventCounts | lib/event-context.tsx:180-181 | deleting keeps every other event and every other event's registration exactly as often as before |
| Store.RegisterLocal | lib/event-context.tsx:197-220 | refused, changing nothing, exactly when the event is missing, the first event with the id is full, or the user already holds an active registration; otherwise one confirmed registration is appended and each event with the id counts exactly one more |
| Store.CountOneMore | lib/event-context.tsx:214-218 | the count of each event with the id goes up by one; other events and the length stay |
| Store.CancelMatching | lib/event-context.tsx:227-233 | every registration of the pair is marked cancelled, active or not; the rest and the length stay |
| Store.CancelRegistration | lib/event-context.tsx:225-243 | afterwards the user is not registered for the event; each event with the id has its count lowered by one, never below zero; nothing else changes |
| Store.Reload | lib/event-context.tsx:103-127 | a delivered list whose dates all parse replaces the events wholesale with their conversions; a failed call or an unparsable date keeps them; loading ends |
| Store.LoadEvents | lib/event-context.tsx:87-101 | backend mode is on exactly when the fetch delivered and every date converted; that success replaces the events, and a failed call or an unparsable date keeps them |
| Store.LoadScoped | lib/event-context.tsx:103-127 | as `loadEvents`, including the unparsable-date fallback, but the mode is left unchanged |
| Store.Mount | lib/event-context.tsx:79-85 | without a stored token nothing changes; with one, the store is `loadEvents` of it: a list that converts replaces the catalogue, a failed call or an unparsable date keeps it, and backend mode follows the outcome |
| Store.AddEvent | lib/event-context.tsx:129-161 | local mode appends the drafted event; backend mode appends the converted created event, or rejects and changes nothing when the call fails or the created event's date does not parse |
| Store.DeleteEvent | lib/event-context.tsx:169-183 | both modes apply the same removal; a failed backend call rejects and changes nothing |
| Store.RegisterForEvent | lib/event-context.tsx:185-223 | local mode is the checked transition; backend mode returns the backend's answer, reloads on acceptance, and never touches the registrations |
| Invariants.InitialValid | lib/event-context.tsx:73-74 | a store seeded with unique, unregistered events and no registrations is valid |
| Invariants.AddKeepsEvents | lib/event-context.tsx:150-158 | local add with a fresh id and a non-negative capacity keeps ids unique and every count within capacity |
| Invariants.AddKeepsReferences | lib/event-context.tsx:150-158 | local add keeps every registration naming an event |
| Invariants.AddKeepsAccounted | lib/event-context.tsx:150-158 | local add with a fresh id keeps every count equal to its active registrations |
| Invariants.AddPreservesValid | lib/event-context.tsx:150-158 | local add with a fresh id and a non-negative capacity keeps every invariant |
| Invariants.RegisterKeepsEvents | lib/event-context.tsx:197-220 | local `registerForEvent`, accepted or refused, keeps ids unique and every count within capacity |
| Invariants.RegisterKeepsOneActive | lib/event-context.tsx:201-213 | local `registerForEvent` keeps at most one active registration per pair |
| Invariants.RegisterKeepsReferences | lib/event-context.tsx:197-213 | local `registerForEvent` keeps every registration naming an event |
| Invariants.RegisterKeepsAccounted | lib/event-context.tsx:206-219 | local `registerForEvent` keeps every count equal to the number of active registrations |
| Invariants.RegisterPreservesValid | lib/event-context.tsx:197-220 | local `registerForEvent`, accepted or refused, keeps every invariant, capacity included |
| Invariants.CancelMatchingCount | lib/event-context.tsx:227-233 | cancelling a pair removes exactly that pair's active registrations from the event's active count |
| Invariants.CancelKeepsEvents | lib/event-context.tsx:234-240 | a cancel by any user keeps ids unique and every count within capacity; the count never goes below zero |
| Invariants.CancelKeepsOneActive | lib/event-context.tsx:227-233 | a cancel by any user keeps at most one active registration per pair |
| Invariants.CancelKeepsReferences | lib/event-context.tsx:225-243 | a cancel by any user keeps every registration naming an event |
| Invariants.CancelKeepsAccounted | lib/event-context.tsx:225-243 | a cancel by a registered user removes exactly one active registration and one from the count, keeping them equal |
| Invariants.CancelPreservesValid | lib/event-context.tsx:225-243 | cancelling by a registered user keeps every invariant |
| Invariants.DeleteKeepsEvents | lib/event-context.tsx:180 | local delete keeps ids unique and every count within capacity |
| Invariants.DeleteKeepsOneActive | lib/event-context.tsx:181 | local delete keeps at most one active registration per pair |
| Invariants.DeleteKeepsReferences | lib/event-context.tsx:180-181 | after a delete every remaining registration still names an event |
| Invariants.DeleteKeepsAccounted | lib/event-context.tsx:180-181 | after a delete every remaining count matches its active registrations |
| Invariants.DeletePreservesValid | lib/event-context.tsx:179-182 | local delete keeps every invariant |
| Invariants.UpdateKeepsUniqueIds | lib/event-context.tsx:163-167 | an update keeps ids unique when its patch sets no id or no event has the targeted id |
| Invariants.UpdateWithinCapacityIff | lib/event-context.tsx:163-167 | on a catalogue within capacity, an update keeps every count within capacity exactly when each patched event still fits |
| Invariants.UpdateKeepsReferences | lib/event-context.tsx:163-167 | an update whose patch sets no id keeps every registration naming an event |
| Invariants.UpdateKeepsAccounted | lib/event-context.tsx:163-167 | an update whose patch sets neither id nor count keeps every count equal to its active registrations |
| Invariants.UpdatePreservesValid | lib/event-context.tsx:163-167 | an update that changes neither ids nor counts, and leaves capacity at or above the count, keeps every invariant |
| Invariants.ConvertedWithinCapacity | lib/event-context.tsx:61-62 | every converted backend event fits its synthesised capacity |
| Invariants.ReloadKeepsWithinCapacity | lib/event-context.tsx:87-127 | every reload, whether it replaces the events or keeps them, keeps the counts within capacity |
| Invariants.FallbackKeepsBackendEvents | lib/event-context.tsx:87-101 | a load that converts then a failed one leaves the backend's events and counts in a local-mode store, within capacity, and not accounted when a reported count has no registrations behind it; a list with an unparsable date leaves the events as they were |
| Invariants.RegisterTwiceRefused | lib/event-context.tsx:201-204 | right after a successful registration the same pair is refused and nothing changes |
| Invariants.AddThenGet | lib/event-context.tsx:150-158 | the event added under a fresh id is the one `getEventById` then returns, carrying the draft |
| Invariants.DeleteHidesRegistrations | lib/event-context.tsx:181 | after a delete no user's registration list mentions the event |
| Invariants.CancelWithoutRegistrationMiscounts | lib/event-context.tsx:234-240 | a cancel by a user with no registration still lowers the count, breaking the count invariant of a valid store |
| EventForm.ValidationErrors | components/events/create-event-form.tsx:53-66 | a field's key is set exactly when that field is in error, each with its own message; the submit key never |
| EventForm.ValidateIffAcceptable | components/events/create-event-form.tsx:53-66 | validation passes exactly when title, description and location are non-blank, date and time non-empty, capacity at least 1 and price empty or non-negative |
| EventForm.TagPieces | components/events/create-event-form.tsx:78-80 | one piece per comma-separated piece of the input, in order, each that piece trimmed, so none has surrounding white space or a comma |
| EventForm.ParseTags | components/events/create-event-form.tsx:78-81 | the tags are the non-empty trimmed pieces, in input order, none empty, padded or holding a comma |
| EventForm.ParseTagsCounts | components/events/create-event-form.tsx:78-81 | every non-empty trimmed piece is kept as often as it occurs; repeated tags are not merged |
| EventForm.RepeatedTagKept | components/events/create-event-form.tsx:78-81 | the input "a,a" parses to two tags "a" |
| EventForm.TagPiecesOfJoin | components/events/create-event-form.tsx:78-80 | trimmed comma-free tags joined with commas split and trim back to themselves |
| EventForm.ParseJoinedTags | components/events/create-event-form.tsx:78-81 | well-formed tags joined with commas parse back to themselves |
| EventForm.BuildDraft | components/events/create-event-form.tsx:75-96 | the draft has title, description and location trimmed, price 0 when empty, the parsed tags, and the organizer id and name of the signed-in user, each replaced by "guest" / "Guest User" when there is no user or that field is empty |
| EventForm.ValidatedDraftWellFormed | components/events/create-event-form.tsx:83-96 | a draft from a valid form has non-empty trimmed text fields, capacity at least 1 and a non-negative price |
| EventForm.HandleSubmit | components/events/create-event-form.tsx:68-121 | `addEvent` runs exactly when validation passes and nothing is in flight; success resets every field and shows success; failure leaves only the submit error |
| Browse.FilteredEvents | components/dashboard/browse-events.tsx:33-44 | an in-order subsequence holding exactly the events that match both the search and the category |
| Browse.FilteredEventCounts | components/dashboard/browse-events.tsx:33-44 | each matching event is shown as often as it occurs in the catalogue, every other event not at all |
| Browse.EmptySearchShowsAll | components/dashboard/browse-events.tsx:34-42 | an empty query under "all" keeps every event |
| Browse.SearchIgnoresQueryCase | components/dashboard/browse-events.tsx:35-39 | lower-casing the query first does not change what matches |
| Browse.ChoicesOmitOther | components/dashboard/browse-events.tsx:11-19 | the choices are "all" and the six named categories; `other` alone is not offered |
| Browse.OtherOnlyUnderAll | components/dashboard/browse-events.tsx:11-19 | an `other` event passes the filter under an offered choice only when that choice is "all" |
| Browse.HandleRegister | components/dashboard/browse-events.tsx:51-59 | without a user nothing changes; with one the store registers that user, and in local mode changes exactly when the registration is accepted |
| Browse.HandleCancel | components/dashboard/browse-events.tsx:61-65 | without a user nothing changes; with one that user is no longer registered for the event |
| Dashboard.TotalsWithinCapacity | components/dashboard/organizer-dashboard.tsx:25-26 | summed over events that fit their capacity, registrations fit the total capacity and are not negative |
| Dashboard.FillRate | components/dashboard/organizer-dashboard.tsx:48-52 | 0 without capacity; otherwise the integer nearest the exact percentage, halves rounded up |
| Dashboard.FillRateIsPercentage | components/dashboard/organizer-dashboard.tsx:48-52 | for counts within capacity the fill rate lies in 0..100, and is 100 when full |
| Dashboard.RecentStrip | components/dashboard/organizer-dashboard.tsx:103-127 | the strip is a prefix of at most three events, all of them when there are no more, and "View all" shows exactly when some are left out |
| Dashboard.ShowDashboard | components/dashboard/organizer-dashboard.tsx:22-52 | nothing without a user; otherwise the user's own events, their count, totals and fill rate |
| Dashboard.DashboardFillRateIsPercentage | components/dashboard/organizer-dashboard.tsx:48-52 | on a catalogue within capacity an organizer's totals fit and the fill rate is a percentage |
| MyRegistrations.JoinEvents | components/dashboard/my-registrations.tsx:22-24 | the joined list is no longer than the registrations and holds only catalogue events |
| MyRegistrations.JoinedFromRegistrations | components/dashboard/my-registrations.tsx:22-24 | every joined event is the event of some registration |
| MyRegistrations.JoinAppend | components/dashboard/my-registrations.tsx:22-24 | the join distributes over concatenation, so registration order is kept |
| MyRegistrations.JoinDropsMissing | components/dashboard/my-registrations.tsx:24 | a registration whose event is missing is dropped silently |
| MyRegistrations.JoinFindsAll | components/dashboard/my-registrations.tsx:22-24 | when every event exists the join has one entry per registration, the event `getEventById` finds |
| MyRegistrations.RegisteredEvents | components/dashboard/my-registrations.tsx:21-24 | at most one event per active registration, each one the user is registered for; when every active registration's event exists, entry `k` is the event `getEventById` finds for the `k`-th active registration, so order follows the registrations |
| MyRegistrations.ShowsEveryRegistration | components/dashboard/my-registrations.tsx:21-24 | in a store whose registrations name events, exactly one event per active registration, entry `k` being the event of the `k`-th one |
| MyRegistrations.HandleCancel | components/dashboard/my-registrations.tsx:31-35 | cancels the user's registration and closes the detail view exactly when it shows that event |
| MyRegistrations.CancelledEventLeavesList | components/dashboard/my-registrations.tsx:31-35 | after the cancel the event is not on the user's list |
| Auth.RoleToBackend | lib/auth-context.tsx:28-30 | attendee is sent as "user", organizer as "organizer" |
| Auth.RoleFromBackend | lib/auth-context.tsx:33-35 | total: "user" is an attendee, every other string an organizer |
| Auth.RoleRoundTrip | lib/auth-context.tsx:28-35 | a role sent and read back is the same role |
| Auth.BackendRoleRoundTrip | lib/auth-context.tsx:28-35 | a backend string read and sent back is unchanged exactly for "user" and "organizer" |
| Auth.FrontUser | lib/auth-context.tsx:67-72 | the front-end user copies id, name and email and reads the role through the mapping |
| Auth.Authenticate | lib/auth-context.tsx:64-91 | true exactly for an ok, successful answer with a user; then user, token and storage are set; otherwise they stay as they were; loading ends either way |
| Auth.Login | lib/auth-context.tsx:53-92 | sign-in succeeds exactly when the answer is accepted; then the user is the mapped answer user, the token is the answer's, and both storage entries hold them; otherwise user, token and storage are left as they were; loading ends either way |
| Auth.SignUpRequestOf | lib/auth-context.tsx:103-108 | the sign-up body carries the fields and the role in the backend's names, from which the role is recovered |
| Auth.Register | lib/auth-context.tsx:94-141 | sign-up sends that body; on the answer it sets user, token, storage and loading exactly as sign-in does |
| Auth.RegisterAnswersAsLogin | lib/auth-context.tsx:111-138 | the session after sign-up's answer is the one sign-in gives for the same answer |
| Auth.Logout | lib/auth-context.tsx:143-148 | no user, no token, and both storage entries removed |
| Auth.Restore | lib/auth-context.tsx:43-51 | a session is restored exactly when both storage entries are present and the token is not empty |
| Auth.SignInSurvivesReload | lib/auth-context.tsx:74-79 | after a successful sign-in with a non-empty token, a reload restores the same user and token |
| Auth.SignOutSurvivesReload | lib/auth-context.tsx:143-148 | after sign-out a reload finds no session |
| LoginPage.HandleSubmit | components/auth/login-page.tsx:28-42 | sign-in calls `login` with no checks; sign-up rejects a blank name, then a blank email, then a password under six characters, and calls `register` exactly when all pass |
| LoginPage.OneErrorAtMost | components/auth/login-page.tsx:36-38 | a submit sets at most one of the three messages |
| Scenarios.CapacityTwoScenario | lib/event-context.tsx:197-240 | on a two-seat event two users get in, a third is refused with the count left at two, and after a cancel the third gets in |
| Scenarios.DeleteCascadeScenario | lib/event-context.tsx:179-182 | deleting an event with two registrations leaves neither user registered and the event unfindable |
| Scenarios.UnparsableDateScenario | lib/event-context.tsx:87-148 | in backend mode a delivered list holding an unparsable date falls back to local mode with the old events, and creating an event with that date is rejected with nothing appended |

## Left out

- The backend: `fetch`, the `lib/api.ts` wrappers, `FormData`, and JSON parsing. Each backend call is an abstract outcome. Sign-in and sign-up see `Unreachable`, `NotJson`, or an answer with its status flag. The store sees `Delivered`/`Failed`, or a boolean for delete and register.
- Browser storage: the mount effects take "is there a token" or the stored entries as parameters. A stored user is assumed to read back as it was written, so the JSON round trip is not modelled.
- The clock: the ISO calendar day (or that a date does not parse) and the upcoming/completed status of a backend event come from a `Clock` parameter. Ids and timestamps from `Date.now()` and `new Date()` are parameters, and their freshness is a precondition where it matters.
- Callers that use an async result as a boolean (`components/dashboard/browse-events.tsx:53-54`, `components/auth/login-page.tsx:33-34`): a pending promise is always truthy. So the failure toast after a register never appears, and neither does the "Invalid email or password" / "already exists" message. The model returns no error for sign-in and models only the store change of a register.
- React scheduling: each command is one atomic transition over the current state. Stale closures over `events`/`registrations` in `registerForEvent`, and interleaved reloads, are not modelled.
- Floating point: the estimated revenue, and the fill bars in event cards and the detail modal, are not modelled. Prices are exact reals. Capacities and counts are integers, so a fractional `Number(capacity)` is not modelled.
- Dashboard.FillRate: computed exactly on integers, not through IEEE division and `Math.round`; the two can differ only by rounding error.
- Text.ToLower: maps only the ASCII letters A-Z. JavaScript's full Unicode case mapping is not modelled.
- Text.Trim: strips a fixed set of white-space characters, not the full Unicode `White_Space` and line-terminator sets `trim` uses.
- LoginPage.HandleSubmit: the password length counts characters, not UTF-16 code units.
- Auth.Authenticate: a successful answer without a token would store the string "undefined"; the model assumes the token is present.
- `isLoading` is modelled only as "loading has ended" after a reload or an authentication. The intermediate `true` is not observable in an atomic transition.
- The mock seed catalogue (`lib/mock-data`) is not part of this model; the initial store takes the seed as a parameter.
- Rendering, routing, toasts, `setTimeout`, the multi-step form navigation (`step` is carried but only reset), image object URLs, and the navbar and page components.

=== FILE: auth.dfy ===
/** The session (`lib/auth-context.tsx`): the role vocabulary shared with
    the backend, the state update after a sign-in or sign-up answer, the
    copy kept in browser storage, and sign-out. The backend's answer is an
    abstract outcome. */
module Auth {
  import opened Types

  /** `roleToBackend`: the backend calls attendees "user". */
  function RoleToBackend(role: Role): (s: string)
    ensures s == "user" <==> role == Attendee
    ensures s == "organizer" <==> role == Organizer
  {
    match role
    case Attendee => "user"
    case Organizer => "organizer"
  }

  /** `roleFromBackend`: total; "user" is an attendee and every other
      string, unknown ones included, an organizer. */
  function RoleFromBackend(s: string): (role: Role)
    ensures role == Attendee <==> s == "user"
  {
    if s == "user" then Attendee else Organizer
  }

  /** Round trip: mapping a role out and back yields the role. */
  lemma RoleRoundTrip(role: Role)
    ensures RoleFromBackend(RoleToBackend(role)) == role
  {
  }

  /** The other direction holds exactly for the two names the backend
      defines. */
  lemma BackendRoleRoundTrip(s: string)
    ensures RoleToBackend(RoleFromBackend(s)) == s <==> s == "user" || s == "organizer"
  {
  }

  /** The user record inside a backend answer. */
  datatype BackendUser = BackendUser(id: string, name: string, email: string, role: string)

  /** The body of a sign-in or sign-up answer. */
  datatype AuthBody = AuthBody(success: bool, user: Option<BackendUser>, token: string)

  /** How a sign-in or sign-up call ended: the request failed, the answer
      was not JSON, or an answer arrived with its HTTP status flag. */
  datatype AuthOutcome =
    | Unreachable
    | NotJson
    | Answered(ok: bool, body: AuthBody)

  /** What the provider holds. */
  datatype AuthState = AuthState(user: Option<User>, token: Option<string>, isLoading: bool)

  /** The `token` and `user` entries of browser storage. */
  datatype Storage = Storage(token: Option<string>, user: Option<User>)

  datatype Session = Session(state: AuthState, storage: Storage)

  /** The result of `login` or `register`, and the session after it. */
  datatype AuthReply = AuthReply(ok: bool, session: Session)

  const SignedOut := AuthState(None, None, false)

  /** The front-end user built from the backend's record. */
  function FrontUser(b: BackendUser): (u: User)
    ensures u.id == b.id && u.name == b.name && u.email == b.email && u.avatar.None?
    ensures u.role == RoleFromBackend(b.role)
  {
    User(b.id, b.name, b.email, RoleFromBackend(b.role), None)
  }

  /** The answer signs the user in: the status is ok, `success` is set and
      the user record is there (a missing record throws and is caught). */
  predicate Accepted(o: AuthOutcome) {
    o.Answered? && o.ok && o.body.success && o.body.user.Some?
  }

  /** The common tail of `login` and `register`: an accepted answer stores
      the user and token in the state and in browser storage and returns
      true; anything else returns false and leaves user, token and storage
      as they were. Loading ends either way. */
  function Authenticate(sess: Session, o: AuthOutcome): (r: AuthReply)
    ensures r.ok <==> Accepted(o)
    ensures !r.session.state.isLoading
    ensures r.ok ==> r.session.state.user == Some(FrontUser(o.body.user.value))
    ensures r.ok ==> r.session.state.token == Some(o.body.token)
    ensures r.ok ==> r.session.storage == Storage(r.session.state.token, r.session.state.user)
    ensures !r.ok ==> r.session == sess.(state := sess.state.(isLoading := false))
  {
    if Accepted(o) then
      var u := FrontUser(o.body.user.value);
      AuthReply(true, Session(AuthState(Some(u), Some(o.body.token), false), Storage(Some(o.body.token), Some(u))))
    else
      AuthReply(false, sess.(state := sess.state.(isLoading := false)))
  }

  /** `login`; the email and password only travel in the request. */
  function Login(sess: Session, email: string, password: string, o: AuthOutcome): (r: AuthReply)
    ensures r.ok <==> Accepted(o)
    ensures !r.session.state.isLoading
    ensures r.ok ==> r.session.state.user == Some(FrontUser(o.body.user.value))
    ensures r.ok ==> r.session.state.token == Some(o.body.token)
    ensures r.ok ==> r.session.storage == Storage(Some(o.body.token), Some(FrontUser(o.body.user.value)))
    ensures !r.ok ==> r.session.state.user == sess.state.user && r.session.state.token == sess.state.token
    ensures !r.ok ==> r.session.storage == sess.storage
  {
    Authenticate(sess, o)
  }

  /** The body `register` sends. */
  datatype SignUpRequest = SignUpRequest(name: string, email: string, password: string, role: string)

  /** The sign-up request carries the role in the backend's vocabulary,
      from which the chosen role is recovered. */
  function SignUpRequestOf(name: string, email: string, password: string, role: Role): (q: SignUpRequest)
    ensures q.name == name && q.email == email && q.password == password
    ensures RoleFromBackend(q.role) == role
    ensures q.role == "user" || q.role == "organizer"
  {
    SignUpRequest(name, email, password, RoleToBackend(role))
  }

  /** A sign-up: the request sent and the outcome of treating the answer. */
  datatype SignUp = SignUp(request: SignUpRequest, reply: AuthReply)

  /** `register`: sends the request, then treats the answer as `login`
      does. */
  function Register(sess: Session, name: string, email: string, password: string, role: Role,
                    o: AuthOutcome): (r: SignUp)
    ensures r.request == SignUpRequestOf(name, email, password, role)
    ensures r.reply.ok <==> Accepted(o)
    ensures !r.reply.session.state.isLoading
    ensures r.reply.ok ==> r.reply.session.state.user == Some(FrontUser(o.body.user.value))
    ensures r.reply.ok ==> r.reply.session.state.token == Some(o.body.token)
    ensures r.reply.ok ==> r.reply.session.storage == Storage(Some(o.body.token), Some(FrontUser(o.body.user.value)))
    ensures !r.reply.ok ==> r.reply.session.state.user == sess.state.user && r.reply.session.state.token == sess.state.token
    ensures !r.reply.ok ==> r.reply.session.storage == sess.storage
  {
    SignUp(SignUpRequestOf(name, email, password, role), Authenticate(sess, o))
  }

  /** Sign-up treats the answer exactly as sign-in does. */
  lemma RegisterAnswersAsLogin(sess: Session, name: string, email: string, password: string, role: Role,
                               o: AuthOutcome)
    ensures Register(sess, name, email, password, role, o).reply == Login(sess, email, password, o)
  {
  }

  /** `logout`: no user, no token, and both storage entries removed. */
  function Logout(sess: Session): (r: Session)
    ensures r.state.user.None? && r.state.token.None?
    ensures r.storage == Storage(None, None)
    ensures r.state.isLoading == sess.state.isLoading
  {
    Session(sess.state.(user := None, token := None), Storage(None, None))
  }

  /** The mount effect: a session is restored only when both storage
      entries are present and the token is not empty. */
  function Restore(st: Storage): (r: AuthState)
    ensures st.token.Some? && st.token.value != "" && st.user.Some? ==>
              r == AuthState(st.user, st.token, false)
    ensures !(st.token.Some? && st.token.value != "" && st.user.Some?) ==> r == SignedOut
  {
    if st.token.Some? && st.token.value != "" && st.user.Some? then AuthState(st.user, st.token, false)
    else SignedOut
  }

  /** A reload after a successful sign-in with a non-empty token restores
      the same user and token. */
  lemma SignInSurvivesReload(sess: Session, o: AuthOutcome)
    requires Accepted(o) && o.body.token != ""
    ensures Restore(Authenticate(sess, o).session.storage) == Authenticate(sess, o).session.state
  {
  }

  /** A reload after signing out finds no session. */
  lemma SignOutSurvivesReload(sess: Session)
    ensures Restore(Logout(sess).storage) == SignedOut
  {
  }
}

=== FILE: backend.dfy ===
/** The adapter between the backend's event records and the front end's
    `Event` (`convertBackendEvent` in `lib/event-context.tsx`). */
module Backend {
  import opened Types
  import opened Categories

  /** The backend sends the organizer either as a bare id or as an
      embedded user record. */
  datatype OrganizerRef =
    | ById(id: string)
    | Embedded(id: string, name: string, email: string)

  /** An event as the backend sends it. The price and the list of
      registered users may be absent from a payload. */
  datatype BackendEvent = BackendEvent(
    id: string,
    title: string,
    description: string,
    date: string,
    location: string,
    category: string,
    time: string,
    price: Option<real>,
    image: Option<string>,
    organizer: OrganizerRef,
    // Spelled as the front end reads the key (`lib/api.ts:17`); a payload
    // carrying a correctly spelled key is seen as having no registrations.
    resisteredUsers: Option<seq<string>>)

  /** The wall clock, as seen by the conversion: the calendar day of a
      backend date, and whether that date is still in the future. The day
      is `None` for a date `new Date` cannot parse: `toISOString` then
      throws, and so does the whole conversion. */
  datatype Clock = Clock(isoDay: string -> Option<string>, isFuture: string -> bool)

  /** The backend date of `b` has a calendar day, so converting `b` does not throw. */
  predicate DateParses(b: BackendEvent, clock: Clock) {
    clock.isoDay(b.date).Some?
  }

  /** Every backend date of `bs` parses. */
  predicate AllDatesParse(bs: seq<BackendEvent>, clock: Clock) {
    forall i :: 0 <= i < |bs| ==> DateParses(bs[i], clock)
  }

  /** The capacity a backend event is given on top of its registrations. */
  const CapacityHeadroom := 100

  const DefaultOrganizerName := "Organizer"

  /** How many users the backend lists as registered (none when absent). */
  function RegisteredCount(b: BackendEvent): nat {
    match b.resisteredUsers
    case Some(users) => |users|
    case None => 0
  }

  /** `convertBackendEvent`, with `None` standing for the exception an
      unparsable date raises. Both organizer shapes are handled: the id is
      the bare string or the record's id, and the display name is the
      placeholder unless the record carries a non-empty name. The
      capacity is synthesised, so a converted event always has room
      for exactly `CapacityHeadroom` more registrations. */
  function ConvertBackendEvent(b: BackendEvent, clock: Clock): (r: Option<Event>)
    ensures r.Some? <==> DateParses(b, clock)
    ensures r.Some? ==>
      var e := r.value;
      && e.id == b.id && e.title == b.title && e.description == b.description
      && e.location == b.location && e.time == b.time && e.image == b.image
      && Some(e.date) == clock.isoDay(b.date)
      && e.category == ConvertCategory(b.category)
      && e.registered == RegisteredCount(b)
      && e.capacity - e.registered == CapacityHeadroom
      && 0 <= e.registered <= e.capacity
      && e.organizerId == b.organizer.id
      && (b.organizer.ById? ==> e.organizerName == DefaultOrganizerName)
      && (b.organizer.Embedded? && b.organizer.name != "" ==> e.organizerName == b.organizer.name)
      && (b.organizer.Embedded? && b.organizer.name == "" ==> e.organizerName == DefaultOrganizerName)
      && e.organizerName != ""
      && e.status == (if clock.isFuture(b.date) then Upcoming else Completed)
      && (b.price.Some? ==> e.price == b.price.value)
      && (b.price.None? ==> e.price == 0.0)
      && e.tags == []
  {
    match clock.isoDay(b.date)
    case None => None
    case Some(day) =>
      var registered := RegisteredCount(b);
      Some(Event(
        id := b.id,
        title := b.title,
        description := b.description,
        date := day,
        time := b.time,
        location := b.location,
        category := ConvertCategory(b.category),
        capacity := registered + CapacityHeadroom,
        registered := registered,
        image := b.image,
        organizerId := b.organizer.id,
        organizerName :=
          match b.organizer
          case ById(_) => DefaultOrganizerName
          case Embedded(_, name, _) => if name == "" then DefaultOrganizerName else name,
        status := if clock.isFuture(b.date) then Upcoming else Completed,
        price := match b.price case Some(p) => p case None => 0.0,
        tags := []))
  }

  /** `backendEvents.map(convertBackendEvent)`: one converted event per
      backend event, in order; a single unparsable date makes the whole
      `map` throw, which is `None`. */
  function ConvertAll(bs: seq<BackendEvent>, clock: Clock): (r: Option<seq<Event>>)
    ensures r.Some? <==> AllDatesParse(bs, clock)
    ensures r.Some? ==> |r.value| == |bs|
    ensures r.Some? ==> forall i :: 0 <= i < |bs| ==> ConvertBackendEvent(bs[i], clock) == Some(r.value[i])
  {
    if AllDatesParse(bs, clock) then
      Some(seq(|bs|, i requires 0 <= i < |bs| && DateParses(bs[i], clock) => ConvertBackendEvent(bs[i], clock).value))
    else None
  }
}

=== FILE: browse.dfy ===
/** The attendee's catalogue view (`components/dashboard/browse-events.tsx`):
    the case-insensitive search, the category choice, and the register
    and cancel handlers, which do nothing without a signed-in user. */
module Browse {
  import opened Types
  import opened Text
  import opened Seqs
  import opened Store
  import opened Backend

  /** The category selector: everything, or one category. */
  datatype CategoryChoice = All | Only(category: EventCategory)

  /** The choices offered, in display order. `Other` is not among them. */
  const CategoryChoices: seq<CategoryChoice> :=
    [All, Only(Conference), Only(Workshop), Only(Meetup), Only(Seminar), Only(Webinar), Only(Social)]

  /** Some tag contains the (already lower-cased) query, ignoring case. */
  predicate SomeTagContains(tags: seq<string>, q: string) {
    exists i :: 0 <= i < |tags| && Contains(ToLower(tags[i]), q)
  }

  /** The search half of the filter: the lower-cased query occurs in the
      lower-cased title, description, location or some tag. */
  predicate MatchesSearch(e: Event, query: string) {
    var q := ToLower(query);
    || Contains(ToLower(e.title), q)
    || Contains(ToLower(e.description), q)
    || Contains(ToLower(e.location), q)
    || SomeTagContains(e.tags, q)
  }

  /** The category half of the filter. */
  predicate MatchesCategory(e: Event, choice: CategoryChoice) {
    choice.All? || e.category == choice.category
  }

  function Shown(query: string, choice: CategoryChoice): Event -> bool {
    (e: Event) => MatchesSearch(e, query) && MatchesCategory(e, choice)
  }

  /** `filteredEvents`: the events matching both the search and the
      category, in catalogue order. */
  function FilteredEvents(events: seq<Event>, query: string, choice: CategoryChoice): (r: seq<Event>)
    ensures IsSubseq(r, events)
    ensures forall e :: e in r <==> e in events && MatchesSearch(e, query) && MatchesCategory(e, choice)
  {
    Filter(events, Shown(query, choice))
  }

  /** Each matching event is shown as often as it occurs in the
      catalogue, every other event not at all. */
  lemma FilteredEventCounts(events: seq<Event>, query: string, choice: CategoryChoice)
    ensures forall e :: multiset(FilteredEvents(events, query, choice))[e] ==
                        if MatchesSearch(e, query) && MatchesCategory(e, choice) then multiset(events)[e] else 0
  {
    FilterCounts(events, Shown(query, choice));
  }

  /** The empty string occurs in every string. */
  lemma ContainsEmpty(s: string)
    ensures Contains(s, "")
  {
    assert "" <= s;
  }

  /** With an empty query and every category selected, nothing is hidden. */
  lemma EmptySearchShowsAll(events: seq<Event>)
    ensures FilteredEvents(events, "", All) == events
  {
    forall i | 0 <= i < |events|
      ensures Shown("", All)(events[i])
    {
      ContainsEmpty(ToLower(events[i].title));
    }
    FilterAll(events, Shown("", All));
  }

  /** The search ignores the case of the query: lower-casing it first
      changes nothing. */
  lemma SearchIgnoresQueryCase(e: Event, query: string)
    ensures MatchesSearch(e, ToLower(query)) == MatchesSearch(e, query)
  {
    ToLowerOfLower(ToLower(query));
  }

  /** The choices are "all" and the six named categories; `Other` is
      never offered on its own. */
  lemma ChoicesOmitOther()
    ensures |CategoryChoices| == 7 && CategoryChoices[0] == All
    ensures Only(Other) !in CategoryChoices
    ensures forall c: EventCategory :: c != Other ==> Only(c) in CategoryChoices
  {
    forall c: EventCategory | c != Other
      ensures Only(c) in CategoryChoices
    {
      var k := match c
        case Conference => 1
        case Workshop => 2
        case Meetup => 3
        case Seminar => 4
        case Webinar => 5
        case Social => 6
        case Other => 0;
      assert CategoryChoices[k] == Only(c);
    }
  }

  /** So an event of category `Other` is shown only under "all". */
  lemma OtherOnlyUnderAll(events: seq<Event>, query: string, choice: CategoryChoice, e: Event)
    requires choice in CategoryChoices
    requires e.category == Other && e in FilteredEvents(events, query, choice)
    ensures choice == All
  {
    ChoicesOmitOther();
  }

  /** `handleRegister`: without a user nothing happens; otherwise the
      store registers the signed-in user. */
  function HandleRegister(user: Option<User>, s: Store, eventId: string, regId: string, registeredAt: string,
                          accepted: bool, reload: Remote<seq<BackendEvent>>, clock: Clock): (r: Store)
    ensures user.None? ==> r == s
    ensures user.Some? ==> r == RegisterForEvent(s, eventId, user.value.id, regId, registeredAt, accepted, reload, clock).store
    ensures user.Some? && !s.useBackend ==>
              (r != s <==> RegisterLocal(s, eventId, user.value.id, regId, registeredAt).ok)
  {
    match user
    case None => s
    case Some(u) => RegisterForEvent(s, eventId, u.id, regId, registeredAt, accepted, reload, clock).store
  }

  /** `handleCancelRegistration`: without a user nothing happens;
      otherwise the signed-in user's registration is cancelled. */
  function HandleCancel(user: Option<User>, s: Store, eventId: string): (r: Store)
    ensures user.None? ==> r == s
    ensures user.Some? ==> r == CancelRegistration(s, eventId, user.value.id)
    ensures user.Some? ==> !IsUserRegistered(r.registrations, eventId, user.value.id)
  {
    match user
    case None => s
    case Some(u) => CancelRegistration(s, eventId, u.id)
  }
}

=== FILE: categories.dfy ===
/** The category normaliser of `lib/event-context.tsx`: free text from the
    backend becomes one of the seven categories. */
module Categories {
  import opened Types
  import opened Text

  /** The lower-case wire name of each category. */
  function CategoryName(c: EventCategory): string {
    match c
    case Conference => "conference"
    case Workshop => "workshop"
    case Meetup => "meetup"
    case Seminar => "seminar"
    case Webinar => "webinar"
    case Social => "social"
    case Other => "other"
  }

  /** `convertCategory`: total; the lower-cased input when that names a
      category, `Other` when it names none. */
  function ConvertCategory(raw: string): (c: EventCategory)
    ensures (exists k :: CategoryName(k) == ToLower(raw)) ==> CategoryName(c) == ToLower(raw)
    ensures (forall k :: CategoryName(k) != ToLower(raw)) ==> c == Other
    ensures c in AllCategories
  {
    var lower := ToLower(raw);
    if lower == "conference" then Conference
    else if lower == "workshop" then Workshop
    else if lower == "meetup" then Meetup
    else if lower == "seminar" then Seminar
    else if lower == "webinar" then Webinar
    else if lower == "social" then Social
    else Other
  }

  /** Distinct categories have distinct names, and every name is lower case. */
  lemma CategoryNamesDistinct(a: EventCategory, b: EventCategory)
    ensures CategoryName(a) == CategoryName(b) <==> a == b
    ensures IsLower(CategoryName(a))
  {
  }

  /** Round trip: a category's own name converts back to it, in any letter case. */
  lemma ConvertCategoryName(c: EventCategory, raw: string)
    requires ToLower(raw) == CategoryName(c)
    ensures ConvertCategory(raw) == c
  {
    CategoryNamesDistinct(ConvertCategory(raw), c);
  }
}

=== FILE: dashboard.dfy ===
/** The organizer's overview (`components/dashboard/organizer-dashboard.tsx`):
    the organizer's own events, the registration and capacity totals, the
    average fill rate, and the "recent events" strip. */
module Dashboard {
  import opened Types
  import opened Store

  /** `reduce((sum, e) => sum + e.registered, 0)`. */
  function TotalRegistered(events: seq<Event>): int {
    if |events| == 0 then 0 else TotalRegistered(events[..|events| - 1]) + events[|events| - 1].registered
  }

  /** `reduce((sum, e) => sum + e.capacity, 0)`. */
  function TotalCapacity(events: seq<Event>): int {
    if |events| == 0 then 0 else TotalCapacity(events[..|events| - 1]) + events[|events| - 1].capacity
  }

  /** Summed over events that each fit their capacity, the registrations
      fit the total capacity. */
  lemma {:induction false} TotalsWithinCapacity(events: seq<Event>)
    requires WithinCapacity(events)
    ensures 0 <= TotalRegistered(events) <= TotalCapacity(events)
  {
    if |events| > 0 {
      var init := events[..|events| - 1];
      assert WithinCapacity(init) by {
        forall i | 0 <= i < |init|
          ensures 0 <= init[i].registered <= init[i].capacity
        {
          assert init[i] == events[i];
        }
      }
      TotalsWithinCapacity(init);
    }
  }

  /** The "Avg. Fill Rate" figure: `Math.round(registered / capacity * 100)`
      when the capacity is positive, otherwise 0. The result is the
      integer nearest to the exact percentage, halves rounded up. */
  function FillRate(registered: int, capacity: int): (p: int)
    ensures capacity <= 0 ==> p == 0
    ensures capacity > 0 ==> 2 * capacity * p <= 200 * registered + capacity < 2 * capacity * (p + 1)
  {
    if capacity > 0 then (200 * registered + capacity) / (2 * capacity) else 0
  }

  /** A fill rate of counts within the capacity is a percentage. */
  lemma FillRateIsPercentage(registered: int, capacity: int)
    requires 0 <= registered <= capacity
    ensures 0 <= FillRate(registered, capacity) <= 100
    ensures capacity > 0 && registered == capacity ==> FillRate(registered, capacity) == 100
  {
    var p := FillRate(registered, capacity);
    if capacity > 0 {
      var d := 2 * capacity;
      assert d * p < d * 101;
      CancelFactor(d, p, 101);
      assert d * 0 < d * (p + 1);
      CancelFactor(d, 0, p + 1);
      if registered == capacity {
        assert d * 100 < d * (p + 1);
        CancelFactor(d, 100, p + 1);
      }
    }
  }

  /** A positive factor can be cancelled from a strict inequality. */
  lemma CancelFactor(a: int, x: int, y: int)
    requires a > 0 && a * x < a * y
    ensures x < y
  {
  }

  /** The "recent events" strip and whether its "View all" link shows. */
  datatype Strip = Strip(shown: seq<Event>, viewAll: bool)

  /** How many events the recent strip shows at most. */
  const RecentCount := 3

  /** `myEvents.slice(0, 3)` and `myEvents.length > 3`: the strip is the
      first events of the list, as many as fit, and "View all" appears
      exactly when the strip leaves some out. */
  function RecentStrip(mine: seq<Event>): (r: Strip)
    ensures |r.shown| <= RecentCount
    ensures r.shown <= mine
    ensures |r.shown| == RecentCount || r.shown == mine
    ensures r.viewAll <==> |r.shown| < |mine|
  {
    Strip(if |mine| <= RecentCount then mine else mine[..RecentCount], |mine| > RecentCount)
  }

  /** What the dashboard shows for one organizer. */
  datatype Overview = Overview(
    myEvents: seq<Event>,
    totalEvents: nat,
    totalRegistrations: int,
    totalCapacity: int,
    fillRate: int,
    recent: Strip)

  /** The dashboard; without a signed-in user it renders nothing. With
      one it shows the user's own events, their count, the registration
      and capacity totals, and the fill rate of those totals. */
  function ShowDashboard(user: Option<User>, s: Store): (r: Option<Overview>)
    ensures user.None? <==> r.None?
    ensures r.Some? ==> r.value.myEvents == GetEventsByOrganizer(s.events, user.value.id)
    ensures r.Some? ==> r.value.totalEvents == |r.value.myEvents|
    ensures r.Some? ==> r.value.totalRegistrations == TotalRegistered(r.value.myEvents)
    ensures r.Some? ==> r.value.totalCapacity == TotalCapacity(r.value.myEvents)
    ensures r.Some? ==> r.value.fillRate == FillRate(r.value.totalRegistrations, r.value.totalCapacity)
    ensures r.Some? ==> r.value.recent == RecentStrip(r.value.myEvents)
  {
    match user
    case None => None
    case Some(u) =>
      var mine := GetEventsByOrganizer(s.events, u.id);
      var registered := TotalRegistered(mine);
      var capacity := TotalCapacity(mine);
      Some(Overview(mine, |mine|, registered, capacity, FillRate(registered, capacity), RecentStrip(mine)))
  }

  /** On a catalogue where every event fits its capacity, the organizer's
      fill rate is a percentage. */
  lemma DashboardFillRateIsPercentage(user: User, s: Store)
    requires WithinCapacity(s.events)
    ensures var o := ShowDashboard(Some(user), s).value;
            0 <= o.totalRegistrations <= o.totalCapacity && 0 <= o.fillRate <= 100
  {
    var mine := GetEventsByOrganizer(s.events, user.id);
    assert WithinCapacity(mine) by {
      forall i | 0 <= i < |mine|
        ensures 0 <= mine[i].registered <= mine[i].capacity
      {
        assert mine[i] in mine;
        var k :| 0 <= k < |s.events| && s.events[k] == mine[i];
      }
    }
    TotalsWithinCapacity(mine);
    FillRateIsPercentage(TotalRegistered(mine), TotalCapacity(mine));
  }
}

=== FILE: event_form.dfy ===
/** The create-event form (`components/events/create-event-form.tsx`):
    field validation, the comma-separated tag parser, the draft handed to
    `addEvent`, and the form state after a submit. */
module EventForm {
  import opened Types
  import opened Text
  import opened Seqs
  import opened Store
  import opened Backend

  /** The value of an `<input type="number">`: empty, or a number the
      browser accepted. */
  datatype NumberInput<T> = Empty | Entered(value: T)

  /** The keys of the form's error map. */
  datatype FieldKey = TitleKey | DescriptionKey | DateKey | TimeKey | LocationKey | CapacityKey | PriceKey | SubmitKey

  datatype Form = Form(
    title: string,
    description: string,
    date: string,
    time: string,
    location: string,
    category: EventCategory,
    capacity: NumberInput<int>,
    price: NumberInput<real>,
    tagsInput: string,
    image: Option<string>,
    errors: map<FieldKey, string>,
    showSuccess: bool,
    step: nat,
    isSubmitting: bool)

  /** The state the form starts in and returns to after a successful submit. */
  const InitialForm := Form("", "", "", "", "", Conference, Empty, Empty, "", None, map[], false, 1, false)

  const SubmitFailed := "Failed to create event. Please try again."

  const GuestId := "guest"
  const GuestName := "Guest User"

  function Message(k: FieldKey): string {
    match k
    case TitleKey => "Title is required"
    case DescriptionKey => "Description is required"
    case DateKey => "Date is required"
    case TimeKey => "Time is required"
    case LocationKey => "Location is required"
    case CapacityKey => "Capacity must be at least 1"
    case PriceKey => "Price cannot be negative"
    case SubmitKey => SubmitFailed
  }

  /** The keys `validate` checks, one per field. */
  const CheckedKeys: set<FieldKey> :=
    {TitleKey, DescriptionKey, DateKey, TimeKey, LocationKey, CapacityKey, PriceKey}

  /** The check `validate` runs for one field fails. Text fields fail when
      blank after trimming, the date and time when empty, the capacity
      when missing or below one, the price when negative. */
  predicate Fails(f: Form, k: FieldKey) {
    match k
    case TitleKey => Trim(f.title) == ""
    case DescriptionKey => Trim(f.description) == ""
    case DateKey => f.date == ""
    case TimeKey => f.time == ""
    case LocationKey => Trim(f.location) == ""
    case CapacityKey => f.capacity.Empty? || f.capacity.value < 1
    case PriceKey => f.price.Entered? && f.price.value < 0.0
    case SubmitKey => false
  }

  /** Which fields are in error, stated without `trim`: a text field is
      in error when it is blank, the date and time when empty, the capacity
      when missing or below one, the price when negative; the submit key is
      never set by validation. */
  predicate Invalid(f: Form, k: FieldKey) {
    match k
    case TitleKey => IsBlank(f.title)
    case DescriptionKey => IsBlank(f.description)
    case DateKey => f.date == ""
    case TimeKey => f.time == ""
    case LocationKey => IsBlank(f.location)
    case CapacityKey => !(f.capacity.Entered? && f.capacity.value >= 1)
    case PriceKey => f.price.Entered? && f.price.value < 0.0
    case SubmitKey => false
  }

  /** `validate`: exactly the fields in error are set, each with its own
      message. */
  function ValidationErrors(f: Form): (errors: map<FieldKey, string>)
    ensures forall k :: k in errors <==> Invalid(f, k)
    ensures forall k :: k in errors ==> errors[k] == Message(k)
  {
    map k | k in CheckedKeys && Fails(f, k) :: Message(k)
  }

  /** The conditions under which `validate` returns true. */
  predicate Acceptable(f: Form) {
    && !IsBlank(f.title) && !IsBlank(f.description) && !IsBlank(f.location)
    && f.date != "" && f.time != ""
    && f.capacity.Entered? && f.capacity.value >= 1
    && (f.price.Entered? ==> f.price.value >= 0.0)
  }

  /** `validate` returns true exactly when every check passes. */
  lemma ValidateIffAcceptable(f: Form)
    ensures ValidationErrors(f) == map[] <==> Acceptable(f)
  {
    var errors := ValidationErrors(f);
    if !Acceptable(f) {
      var k :=
        if IsBlank(f.title) then TitleKey
        else if IsBlank(f.description) then DescriptionKey
        else if IsBlank(f.location) then LocationKey
        else if f.date == "" then DateKey
        else if f.time == "" then TimeKey
        else if !(f.capacity.Entered? && f.capacity.value >= 1) then CapacityKey
        else PriceKey;
      assert k in errors;
    }
  }

  /** The trimmed pieces of the tag input, empty ones included: one per
      comma-separated piece, in order. */
  function TagPieces(input: string): (pieces: seq<string>)
    ensures |pieces| == |Split(input, ',')|
    ensures forall i :: 0 <= i < |pieces| ==> pieces[i] == Trim(Split(input, ',')[i])
    ensures forall i :: 0 <= i < |pieces| ==> IsTrimmed(pieces[i]) && ',' !in pieces[i]
  {
    var parts := Split(input, ',');
    seq(|parts|, i requires 0 <= i < |parts| =>
        var t := Trim(parts[i]);
        assert ',' !in t by {
          if ',' in t { TrimKeepsChars(parts[i], ','); }
        }
        t)
  }

  function NonEmpty(t: string): bool {
    t != ""
  }

  /** `tagsInput.split(",").map(t => t.trim()).filter(Boolean)`: the
      non-empty trimmed pieces, in input order. */
  function ParseTags(input: string): (tags: seq<string>)
    ensures forall i :: 0 <= i < |tags| ==> tags[i] != "" && IsTrimmed(tags[i]) && ',' !in tags[i]
    ensures IsSubseq(tags, TagPieces(input))
    ensures forall t :: t in tags <==> t in TagPieces(input) && t != ""
  {
    var pieces := TagPieces(input);
    var tags := Filter(pieces, NonEmpty);
    forall i | 0 <= i < |tags|
      ensures tags[i] != "" && IsTrimmed(tags[i]) && ',' !in tags[i]
    {
      assert tags[i] in tags;
      var k :| 0 <= k < |pieces| && pieces[k] == tags[i];
    }
    tags
  }

  /** Every non-empty tag is kept as often as it occurs among the
      trimmed pieces, so repeated tags are not merged. */
  lemma ParseTagsCounts(input: string)
    ensures forall t :: multiset(ParseTags(input))[t] == if t != "" then multiset(TagPieces(input))[t] else 0
  {
    FilterCounts(TagPieces(input), NonEmpty);
  }

  /** Trimmed, comma-free pieces joined with commas split and trim back
      to themselves. */
  lemma TagPiecesOfJoin(tags: seq<string>)
    requires |tags| >= 1
    requires forall i :: 0 <= i < |tags| ==> IsTrimmed(tags[i]) && ',' !in tags[i]
    ensures TagPieces(Join(tags, ',')) == tags
  {
    SplitJoin(tags, ',');
    var pieces := TagPieces(Join(tags, ','));
    forall i | 0 <= i < |tags|
      ensures pieces[i] == tags[i]
    {
      TrimTrimmed(tags[i]);
    }
  }

  /** Round trip: well-formed tags joined with commas parse back to themselves. */
  lemma ParseJoinedTags(tags: seq<string>)
    requires forall i :: 0 <= i < |tags| ==> tags[i] != "" && IsTrimmed(tags[i]) && ',' !in tags[i]
    ensures ParseTags(Join(tags, ',')) == tags
  {
    if |tags| == 0 {
      assert Split("", ',') == [""];
      assert TagPieces("") == [""];
      assert Filter([""], NonEmpty) == Filter([""][1..], NonEmpty);
    } else {
      TagPiecesOfJoin(tags);
      FilterAll(tags, NonEmpty);
    }
  }

  /** A repeated tag is kept twice. */
  lemma RepeatedTagKept()
    ensures ParseTags("a,a") == ["a", "a"]
  {
    assert Join(["a", "a"], ',') == "a,a";
    ParseJoinedTags(["a", "a"]);
  }

  /** `x || fallback` on a string. */
  function OrElse(x: string, fallback: string): string {
    if x == "" then fallback else x
  }

  /** The draft `handleSubmit` passes to `addEvent`. */
  function BuildDraft(f: Form, user: Option<User>): (d: EventDraft)
    ensures d.title == Trim(f.title) && d.description == Trim(f.description) && d.location == Trim(f.location)
    ensures d.date == f.date && d.time == f.time && d.category == f.category && d.image == f.image
    ensures d.capacity == (if f.capacity.Entered? then f.capacity.value else 0)
    ensures f.price.Empty? ==> d.price == 0.0
    ensures f.price.Entered? ==> d.price == f.price.value
    ensures d.tags == ParseTags(f.tagsInput)
    ensures user.None? ==> d.organizerId == GuestId && d.organizerName == GuestName
    ensures user.Some? && user.value.id != "" ==> d.organizerId == user.value.id
    ensures user.Some? && user.value.name != "" ==> d.organizerName == user.value.name
    ensures user.Some? && user.value.id == "" ==> d.organizerId == GuestId
    ensures user.Some? && user.value.name == "" ==> d.organizerName == GuestName
  {
    var userId := if user.Some? then OrElse(user.value.id, GuestId) else GuestId;
    var userName := if user.Some? then OrElse(user.value.name, GuestName) else GuestName;
    EventDraft(
      title := Trim(f.title),
      description := Trim(f.description),
      date := f.date,
      time := f.time,
      location := Trim(f.location),
      category := f.category,
      capacity := match f.capacity case Entered(n) => n case Empty => 0,
      price := match f.price case Entered(p) => p case Empty => 0.0,
      tags := ParseTags(f.tagsInput),
      organizerId := userId,
      organizerName := userName,
      image := f.image)
  }

  /** A draft built from a form that passed validation is well formed:
      title, description and location are non-empty and trimmed, the
      capacity is at least one and the price is not negative. */
  lemma ValidatedDraftWellFormed(f: Form, user: Option<User>)
    requires ValidationErrors(f) == map[]
    ensures var d := BuildDraft(f, user);
            && d.title != "" && IsTrimmed(d.title)
            && d.description != "" && IsTrimmed(d.description)
            && d.location != "" && IsTrimmed(d.location)
            && d.capacity >= 1 && d.price >= 0.0
  {
    ValidateIffAcceptable(f);
  }

  /** The form and the store after one submit. */
  datatype Submitted = Submitted(form: Form, store: Store, sent: Option<EventDraft>)

  /** `handleSubmit`. `addEvent` runs only when validation passes and no
      submission is in flight. Success resets every field and shows the
      success panel; a rejected `addEvent` leaves only the submit error. */
  function HandleSubmit(f: Form, user: Option<User>, s: Store, freshId: string,
                        created: Remote<BackendEvent>, clock: Clock): (r: Submitted)
    ensures r.sent.Some? <==> Acceptable(f) && !f.isSubmitting
    ensures r.sent.None? ==> r.store == s && r.form == f.(errors := ValidationErrors(f))
    ensures r.sent.Some? ==> r.sent.value == BuildDraft(f, user)
    ensures r.sent.Some? ==> r.store == AddEvent(s, r.sent.value, freshId, created, clock).store
    ensures r.sent.Some? && !AddEvent(s, r.sent.value, freshId, created, clock).rejected ==>
              r.form == InitialForm.(showSuccess := true)
    ensures r.sent.Some? && AddEvent(s, r.sent.value, freshId, created, clock).rejected ==>
              r.form == f.(errors := map[SubmitKey := SubmitFailed])
    ensures !r.form.isSubmitting || r.sent.None?
  {
    var errors := ValidationErrors(f);
    ValidateIffAcceptable(f);
    if errors != map[] || f.isSubmitting then
      Submitted(f.(errors := errors), s, None)
    else
      var d := BuildDraft(f, user);
      var reply := AddEvent(s, d, freshId, created, clock);
      if reply.rejected then
        Submitted(f.(errors := map[SubmitKey := SubmitFailed], isSubmitting := false), reply.store, Some(d))
      else
        Submitted(InitialForm.(showSuccess := true), reply.store, Some(d))
  }
}

=== FILE: invariants.dfy ===
/** The invariants the local store keeps, and the proofs that each local
    transition keeps them:
    - event ids are unique;
    - every event has 0 <= registered <= capacity;
    - at most one active registration per (event, user) pair;
    - every registration names an existing event;
    - every event's count equals its number of active registrations. */
module Invariants {
  import opened Types
  import opened Seqs
  import opened Store
  import opened Backend

  function DistinctIds(a: Event, b: Event): bool {
    a.id != b.id
  }

  ghost predicate UniqueIds(events: seq<Event>) {
    Pairwise(events, DistinctIds)
  }

  function NotBothActive(a: Registration, b: Registration): bool {
    !(Active(a) && Active(b) && a.eventId == b.eventId && a.userId == b.userId)
  }

  ghost predicate AtMostOneActive(regs: seq<Registration>) {
    Pairwise(regs, NotBothActive)
  }

  ghost predicate ReferencesEvents(s: Store) {
    forall i :: 0 <= i < |s.registrations| ==> HasEvent(s.events, s.registrations[i].eventId)
  }

  /** How many active registrations the event has. */
  function ActiveCount(regs: seq<Registration>, eventId: string): nat {
    if |regs| == 0 then 0
    else (if regs[0].eventId == eventId && Active(regs[0]) then 1 else 0) + ActiveCount(regs[1..], eventId)
  }

  /** How many active registrations the user holds for the event. */
  function PairCount(regs: seq<Registration>, eventId: string, userId: string): nat {
    if |regs| == 0 then 0
    else (if ActiveFor(regs[0], eventId, userId) then 1 else 0) + PairCount(regs[1..], eventId, userId)
  }

  ghost predicate Accounted(s: Store) {
    forall i :: 0 <= i < |s.events| ==> s.events[i].registered == ActiveCount(s.registrations, s.events[i].id)
  }

  ghost predicate Valid(s: Store) {
    && UniqueIds(s.events)
    && WithinCapacity(s.events)
    && AtMostOneActive(s.registrations)
    && ReferencesEvents(s)
    && Accounted(s)
  }

  // ------------------------------------------------------------ counting

  lemma {:induction false} ActiveCountAppend(regs: seq<Registration>, x: Registration, eventId: string)
    ensures ActiveCount(regs + [x], eventId)
         == ActiveCount(regs, eventId) + (if x.eventId == eventId && Active(x) then 1 else 0)
    decreases |regs|
  {
    if |regs| > 0 {
      assert (regs + [x])[1..] == regs[1..] + [x];
      ActiveCountAppend(regs[1..], x, eventId);
    }
  }

  lemma {:induction false} ActiveCountNone(regs: seq<Registration>, eventId: string)
    requires forall i :: 0 <= i < |regs| ==> regs[i].eventId != eventId
    ensures ActiveCount(regs, eventId) == 0
    decreases |regs|
  {
    if |regs| > 0 {
      ActiveCountNone(regs[1..], eventId);
    }
  }

  /** Cancelling a pair removes exactly that pair's active registrations
      from the event's active count, and touches no other event's. */
  lemma {:induction false} CancelMatchingCount(regs: seq<Registration>, eventId: string, userId: string, x: string)
    ensures ActiveCount(regs, x)
         == ActiveCount(CancelMatching(regs, eventId, userId), x)
            + (if x == eventId then PairCount(regs, eventId, userId) else 0)
    decreases |regs|
  {
    if |regs| > 0 {
      var c := CancelMatching(regs, eventId, userId);
      assert c[1..] == CancelMatching(regs[1..], eventId, userId);
      CancelMatchingCount(regs[1..], eventId, userId, x);
    }
  }

  lemma {:induction false} PairCountNone(regs: seq<Registration>, eventId: string, userId: string)
    requires !IsUserRegistered(regs, eventId, userId)
    ensures PairCount(regs, eventId, userId) == 0
    decreases |regs|
  {
    if |regs| > 0 {
      forall k | 0 <= k < |regs[1..]|
        ensures !ActiveFor(regs[1..][k], eventId, userId)
      {
        assert regs[1..][k] == regs[k + 1];
      }
      PairCountNone(regs[1..], eventId, userId);
    }
  }

  /** With at most one active registration per pair, a registered user
      holds exactly one. */
  lemma {:induction false} PairCountOne(regs: seq<Registration>, eventId: string, userId: string)
    requires AtMostOneActive(regs)
    requires IsUserRegistered(regs, eventId, userId)
    ensures PairCount(regs, eventId, userId) == 1
    decreases |regs|
  {
    var t := regs[1..];
    assert AtMostOneActive(t) by {
      forall i, j | 0 <= i < j < |t|
        ensures NotBothActive(t[i], t[j])
      {
        assert t[i] == regs[i + 1] && t[j] == regs[j + 1];
      }
    }
    if ActiveFor(regs[0], eventId, userId) {
      forall k | 0 <= k < |t|
        ensures !ActiveFor(t[k], eventId, userId)
      {
        assert t[k] == regs[k + 1];
        assert NotBothActive(regs[0], regs[k + 1]);
      }
      PairCountNone(t, eventId, userId);
    } else {
      var k :| 0 <= k < |regs| && ActiveFor(regs[k], eventId, userId);
      assert ActiveFor(t[k - 1], eventId, userId);
      PairCountOne(t, eventId, userId);
    }
  }

  /** Removing the registrations of another event leaves this event's
      active count as it was. */
  lemma {:induction false} FilterOtherEventCount(regs: seq<Registration>, id: string, x: string)
    requires x != id
    ensures ActiveCount(Filter(regs, OtherEventsRegistration(id)), x) == ActiveCount(regs, x)
    decreases |regs|
  {
    if |regs| > 0 {
      FilterOtherEventCount(regs[1..], id, x);
      var rest := Filter(regs[1..], OtherEventsRegistration(id));
      if regs[0].eventId != id {
        assert ([regs[0]] + rest)[1..] == rest;
      }
    }
  }

  // ------------------------------------------------------- preservation

  /** The store a session starts from is valid when the seed events have
      unique ids, no registrations counted and a non-negative capacity. */
  lemma InitialValid(seed: seq<Event>)
    requires UniqueIds(seed)
    requires forall i :: 0 <= i < |seed| ==> seed[i].registered == 0 <= seed[i].capacity
    ensures Valid(Initial(seed))
  {
  }

  /** Local `addEvent` with a fresh id and a non-negative capacity keeps
      event ids unique and every count within its capacity. */
  lemma AddKeepsEvents(s: Store, d: EventDraft, freshId: string)
    requires UniqueIds(s.events) && WithinCapacity(s.events)
    requires !HasEvent(s.events, freshId)
    requires d.capacity >= 0
    ensures var r := AddEventLocal(s, d, freshId);
            UniqueIds(r.events) && WithinCapacity(r.events)
  {
    var r := AddEventLocal(s, d, freshId);
    var n := |s.events|;
    assert forall i :: 0 <= i < n ==> r.events[i] == s.events[i];
    forall i, j | 0 <= i < j < |r.events|
      ensures DistinctIds(r.events[i], r.events[j])
    {
      if j == n {
        assert s.events[i].id != freshId;
      } else {
        assert DistinctIds(s.events[i], s.events[j]);
      }
    }
  }

  /** Local `addEvent` keeps every registration naming an event. */
  lemma AddKeepsReferences(s: Store, d: EventDraft, freshId: string)
    requires ReferencesEvents(s)
    ensures ReferencesEvents(AddEventLocal(s, d, freshId))
  {
    var r := AddEventLocal(s, d, freshId);
    forall i | 0 <= i < |r.registrations|
      ensures HasEvent(r.events, r.registrations[i].eventId)
    {
      var k :| 0 <= k < |s.events| && s.events[k].id == s.registrations[i].eventId;
      assert r.events[k] == s.events[k];
    }
  }

  /** Local `addEvent` with a fresh id keeps every count matching its
      active registrations: the new event has none. */
  lemma AddKeepsAccounted(s: Store, d: EventDraft, freshId: string)
    requires Accounted(s) && ReferencesEvents(s)
    requires !HasEvent(s.events, freshId)
    ensures Accounted(AddEventLocal(s, d, freshId))
  {
    var r := AddEventLocal(s, d, freshId);
    assert forall i :: 0 <= i < |s.events| ==> r.events[i] == s.events[i];
    forall i | 0 <= i < |s.registrations|
      ensures s.registrations[i].eventId != freshId
    {
      assert HasEvent(s.events, s.registrations[i].eventId);
    }
    ActiveCountNone(s.registrations, freshId);
  }

  /** Local `addEvent` with a fresh id and a non-negative capacity keeps
      the store valid. */
  lemma AddPreservesValid(s: Store, d: EventDraft, freshId: string)
    requires Valid(s)
    requires !HasEvent(s.events, freshId)
    requires d.capacity >= 0
    ensures Valid(AddEventLocal(s, d, freshId))
  {
    AddKeepsEvents(s, d, freshId);
    AddKeepsReferences(s, d, freshId);
    AddKeepsAccounted(s, d, freshId);
  }

  /** Local `registerForEvent` keeps event ids unique and every count
      within its capacity. */
  lemma RegisterKeepsEvents(s: Store, eventId: string, userId: string, regId: string, at: string)
    requires UniqueIds(s.events) && WithinCapacity(s.events)
    ensures var r := RegisterLocal(s, eventId, userId, regId, at).store;
            UniqueIds(r.events) && WithinCapacity(r.events)
  {
    var r := RegisterLocal(s, eventId, userId, regId, at).store;
    if r == s { return; }
    var j :| FirstWithId(s.events, eventId, j) && s.events[j].registered < s.events[j].capacity;
    assert WithinCapacity(r.events) by {
      forall i | 0 <= i < |s.events| && s.events[i].id == eventId
        ensures i == j
      {
      }
    }
    assert UniqueIds(r.events) by {
      forall i, k | 0 <= i < k < |r.events|
        ensures DistinctIds(r.events[i], r.events[k])
      {
        assert DistinctIds(s.events[i], s.events[k]);
      }
    }
  }

  /** Local `registerForEvent` leaves at most one active record per
      event and user. */
  lemma RegisterKeepsOneActive(s: Store, eventId: string, userId: string, regId: string, at: string)
    requires AtMostOneActive(s.registrations)
    ensures AtMostOneActive(RegisterLocal(s, eventId, userId, regId, at).store.registrations)
  {
    var r := RegisterLocal(s, eventId, userId, regId, at).store;
    if r == s { return; }
    var n := |s.registrations|;
    forall i, k | 0 <= i < k < |r.registrations|
      ensures NotBothActive(r.registrations[i], r.registrations[k])
    {
      if k == n {
        assert !ActiveFor(s.registrations[i], eventId, userId);
      } else {
        assert NotBothActive(s.registrations[i], s.registrations[k]);
      }
    }
  }

  /** Local `registerForEvent` keeps every record naming an event. */
  lemma RegisterKeepsReferences(s: Store, eventId: string, userId: string, regId: string, at: string)
    requires ReferencesEvents(s)
    ensures ReferencesEvents(RegisterLocal(s, eventId, userId, regId, at).store)
  {
    var r := RegisterLocal(s, eventId, userId, regId, at).store;
    if r == s { return; }
    var j :| FirstWithId(s.events, eventId, j) && s.events[j].registered < s.events[j].capacity;
    forall i | 0 <= i < |r.registrations|
      ensures HasEvent(r.events, r.registrations[i].eventId)
    {
      if i < |s.registrations| {
        var k :| 0 <= k < |s.events| && s.events[k].id == s.registrations[i].eventId;
        assert r.events[k].id == s.events[k].id;
      } else {
        assert r.events[j].id == eventId;
      }
    }
  }

  /** Local `registerForEvent` keeps every count matching its active
      records. */
  lemma RegisterKeepsAccounted(s: Store, eventId: string, userId: string, regId: string, at: string)
    requires Accounted(s)
    ensures Accounted(RegisterLocal(s, eventId, userId, regId, at).store)
  {
    var r := RegisterLocal(s, eventId, userId, regId, at).store;
    if r == s { return; }
    var reg := Registration(regId, eventId, userId, at, Confirmed);
    forall i | 0 <= i < |r.events|
      ensures r.events[i].registered == ActiveCount(r.registrations, r.events[i].id)
    {
      ActiveCountAppend(s.registrations, reg, s.events[i].id);
    }
  }

  /** Local `registerForEvent` keeps the store valid: in particular the
      count never passes the capacity and no pair is registered twice. */
  lemma RegisterPreservesValid(s: Store, eventId: string, userId: string, regId: string, at: string)
    requires Valid(s)
    ensures Valid(RegisterLocal(s, eventId, userId, regId, at).store)
  {
    RegisterKeepsEvents(s, eventId, userId, regId, at);
    RegisterKeepsOneActive(s, eventId, userId, regId, at);
    RegisterKeepsReferences(s, eventId, userId, regId, at);
    RegisterKeepsAccounted(s, eventId, userId, regId, at);
  }

  /** `cancelRegistration`, by any user, keeps event ids unique and
      every count within its capacity: the count never goes below zero. */
  lemma CancelKeepsEvents(s: Store, eventId: string, userId: string)
    requires UniqueIds(s.events) && WithinCapacity(s.events)
    ensures var r := CancelRegistration(s, eventId, userId);
            UniqueIds(r.events) && WithinCapacity(r.events)
  {
    var r := CancelRegistration(s, eventId, userId);
    forall i, k | 0 <= i < k < |r.events|
      ensures DistinctIds(r.events[i], r.events[k])
    {
      assert DistinctIds(s.events[i], s.events[k]);
    }
  }

  /** `cancelRegistration`, by any user, keeps at most one active
      registration per event and user. */
  lemma CancelKeepsOneActive(s: Store, eventId: string, userId: string)
    requires AtMostOneActive(s.registrations)
    ensures AtMostOneActive(CancelRegistration(s, eventId, userId).registrations)
  {
    var r := CancelRegistration(s, eventId, userId);
    forall i, k | 0 <= i < k < |r.registrations|
      ensures NotBothActive(r.registrations[i], r.registrations[k])
    {
      assert NotBothActive(s.registrations[i], s.registrations[k]);
    }
  }

  /** `cancelRegistration`, by any user, keeps every registration naming
      an event. */
  lemma CancelKeepsReferences(s: Store, eventId: string, userId: string)
    requires ReferencesEvents(s)
    ensures ReferencesEvents(CancelRegistration(s, eventId, userId))
  {
    var r := CancelRegistration(s, eventId, userId);
    forall i | 0 <= i < |r.registrations|
      ensures HasEvent(r.events, r.registrations[i].eventId)
    {
      var k :| 0 <= k < |s.events| && s.events[k].id == s.registrations[i].eventId;
      assert r.events[k].id == s.events[k].id;
    }
  }

  /** A cancel by a registered user keeps every count matching its active
      registrations: exactly one active registration goes, and the count
      drops by one. */
  lemma CancelKeepsAccounted(s: Store, eventId: string, userId: string)
    requires Accounted(s) && AtMostOneActive(s.registrations)
    requires IsUserRegistered(s.registrations, eventId, userId)
    ensures Accounted(CancelRegistration(s, eventId, userId))
  {
    var r := CancelRegistration(s, eventId, userId);
    PairCountOne(s.registrations, eventId, userId);
    forall i | 0 <= i < |r.events|
      ensures r.events[i].registered == ActiveCount(r.registrations, r.events[i].id)
    {
      CancelMatchingCount(s.registrations, eventId, userId, s.events[i].id);
    }
  }

  /** `cancelRegistration` by a registered user keeps the store valid. */
  lemma CancelPreservesValid(s: Store, eventId: string, userId: string)
    requires Valid(s)
    requires IsUserRegistered(s.registrations, eventId, userId)
    ensures Valid(CancelRegistration(s, eventId, userId))
  {
    CancelKeepsEvents(s, eventId, userId);
    CancelKeepsOneActive(s, eventId, userId);
    CancelKeepsReferences(s, eventId, userId);
    CancelKeepsAccounted(s, eventId, userId);
  }

  /** Local `deleteEvent` keeps event ids unique and every count within
      its capacity. */
  lemma DeleteKeepsEvents(s: Store, id: string)
    requires UniqueIds(s.events) && WithinCapacity(s.events)
    ensures var r := DeleteEventLocal(s, id);
            UniqueIds(r.events) && WithinCapacity(r.events)
  {
    var r := DeleteEventLocal(s, id);
    FilterPairwise(s.events, OtherEvent(id), DistinctIds);
    forall i | 0 <= i < |r.events|
      ensures 0 <= r.events[i].registered <= r.events[i].capacity
    {
      assert r.events[i] in s.events;
    }
  }

  /** Local `deleteEvent` keeps at most one active registration per event
      and user. */
  lemma DeleteKeepsOneActive(s: Store, id: string)
    requires AtMostOneActive(s.registrations)
    ensures AtMostOneActive(DeleteEventLocal(s, id).registrations)
  {
    FilterPairwise(s.registrations, OtherEventsRegistration(id), NotBothActive);
  }

  /** Local `deleteEvent` keeps every remaining registration naming an
      event. */
  lemma DeleteKeepsReferences(s: Store, id: string)
    requires ReferencesEvents(s)
    ensures ReferencesEvents(DeleteEventLocal(s, id))
  {
    var r := DeleteEventLocal(s, id);
    forall i | 0 <= i < |r.registrations|
      ensures HasEvent(r.events, r.registrations[i].eventId)
    {
      var x := r.registrations[i];
      assert x in r.registrations;
      var m :| 0 <= m < |s.registrations| && s.registrations[m] == x;
      var k :| 0 <= k < |s.events| && s.events[k].id == x.eventId;
      var e := s.events[k];
      assert e in s.events;
      var n :| 0 <= n < |r.events| && r.events[n] == e;
    }
  }

  /** Local `deleteEvent` keeps every remaining count matching its active
      registrations. */
  lemma DeleteKeepsAccounted(s: Store, id: string)
    requires Accounted(s)
    ensures Accounted(DeleteEventLocal(s, id))
  {
    var r := DeleteEventLocal(s, id);
    forall i | 0 <= i < |r.events|
      ensures r.events[i].registered == ActiveCount(r.registrations, r.events[i].id)
    {
      assert r.events[i] in s.events;
      FilterOtherEventCount(s.registrations, id, r.events[i].id);
    }
  }

  /** Local `deleteEvent` keeps the store valid. */
  lemma DeletePreservesValid(s: Store, id: string)
    requires Valid(s)
    ensures Valid(DeleteEventLocal(s, id))
  {
    DeleteKeepsEvents(s, id);
    DeleteKeepsOneActive(s, id);
    DeleteKeepsReferences(s, id);
    DeleteKeepsAccounted(s, id);
  }

  /** `updateEvent` keeps event ids unique when the patch sets no id, or
      when no event carries the id it targets. */
  lemma UpdateKeepsUniqueIds(s: Store, id: string, p: EventPatch)
    requires UniqueIds(s.events)
    requires p.id.None? || !HasEvent(s.events, id)
    ensures UniqueIds(UpdateEvent(s, id, p).events)
  {
    var r := UpdateEvent(s, id, p);
    forall i, k | 0 <= i < k < |r.events|
      ensures DistinctIds(r.events[i], r.events[k])
    {
      assert DistinctIds(s.events[i], s.events[k]);
    }
  }

  /** On a catalogue within capacity, `updateEvent` keeps every count
      within its capacity exactly when each patched event still has
      0 <= registered <= capacity. */
  lemma UpdateWithinCapacityIff(s: Store, id: string, p: EventPatch)
    requires WithinCapacity(s.events)
    ensures WithinCapacity(UpdateEvent(s, id, p).events) <==>
            forall i :: 0 <= i < |s.events| && s.events[i].id == id ==>
              0 <= Overlay(s.events[i], p).registered <= Overlay(s.events[i], p).capacity
  {
    var r := UpdateEvent(s, id, p);
    if forall i :: 0 <= i < |s.events| && s.events[i].id == id ==>
         0 <= Overlay(s.events[i], p).registered <= Overlay(s.events[i], p).capacity {
      forall i | 0 <= i < |r.events|
        ensures 0 <= r.events[i].registered <= r.events[i].capacity
      {
        if s.events[i].id == id {
          assert r.events[i] == Overlay(s.events[i], p);
        } else {
          assert r.events[i] == s.events[i];
        }
      }
    }
  }

  /** `updateEvent` keeps every registration naming an event when the
      patch sets no id. */
  lemma UpdateKeepsReferences(s: Store, id: string, p: EventPatch)
    requires ReferencesEvents(s)
    requires p.id.None?
    ensures ReferencesEvents(UpdateEvent(s, id, p))
  {
    var r := UpdateEvent(s, id, p);
    forall i | 0 <= i < |r.registrations|
      ensures HasEvent(r.events, r.registrations[i].eventId)
    {
      var k :| 0 <= k < |s.events| && s.events[k].id == s.registrations[i].eventId;
      assert r.events[k].id == s.events[k].id;
    }
  }

  /** `updateEvent` keeps every count matching its active registrations
      when the patch sets neither the id nor the count. */
  lemma UpdateKeepsAccounted(s: Store, id: string, p: EventPatch)
    requires Accounted(s)
    requires p.id.None? && p.registered.None?
    ensures Accounted(UpdateEvent(s, id, p))
  {
    var r := UpdateEvent(s, id, p);
    forall i | 0 <= i < |r.events|
      ensures r.events[i].id == s.events[i].id && r.events[i].registered == s.events[i].registered
    {
    }
  }

  /** `updateEvent` keeps the store valid when the patch leaves ids and
      counts alone and any new capacity still covers the count. */
  lemma UpdatePreservesValid(s: Store, id: string, p: EventPatch)
    requires Valid(s)
    requires p.id.None? && p.registered.None?
    requires p.capacity.Some? ==>
      forall i :: 0 <= i < |s.events| && s.events[i].id == id ==> s.events[i].registered <= p.capacity.value
    ensures Valid(UpdateEvent(s, id, p))
  {
    UpdateKeepsUniqueIds(s, id, p);
    UpdateWithinCapacityIff(s, id, p);
    UpdateKeepsReferences(s, id, p);
    UpdateKeepsAccounted(s, id, p);
  }

  // ------------------------------------------------------------ reloads

  /** Converted backend events always fit their synthesised capacity. */
  lemma ConvertedWithinCapacity(bs: seq<BackendEvent>, clock: Clock)
    ensures ConvertAll(bs, clock).Some? ==> WithinCapacity(ConvertAll(bs, clock).value)
  {
    if ConvertAll(bs, clock).Some? {
      var es := ConvertAll(bs, clock).value;
      forall i | 0 <= i < |es|
        ensures 0 <= es[i].registered <= es[i].capacity
      {
        assert ConvertBackendEvent(bs[i], clock) == Some(es[i]);
      }
    }
  }

  /** Every reload, whether it replaces the events or keeps them, keeps
      the counts within capacity. */
  lemma ReloadKeepsWithinCapacity(s: Store, fetched: Remote<seq<BackendEvent>>, clock: Clock)
    requires WithinCapacity(s.events)
    ensures WithinCapacity(LoadEvents(s, fetched, clock).events)
    ensures WithinCapacity(LoadScoped(s, fetched, clock).events)
  {
    if LoadSucceeds(fetched, clock) {
      ConvertedWithinCapacity(fetched.value, clock);
    }
  }

  /** A load that converts followed by a failed one leaves the backend's
      events in a store that is back in local mode, with the counts the
      backend reported. When those counts are not zero and the store has
      no registrations, the count invariant does not hold there: local
      transitions then start from a store that is not `Accounted`. A
      list holding an unparsable date is never taken over at all. */
  lemma FallbackKeepsBackendEvents(s: Store, bs: seq<BackendEvent>, clock: Clock)
    ensures var r := LoadEvents(LoadEvents(s, Delivered(bs), clock), Failed, clock);
            && !r.useBackend
            && r.registrations == s.registrations
            && (AllDatesParse(bs, clock) ==> Some(r.events) == ConvertAll(bs, clock) && WithinCapacity(r.events))
            && (!AllDatesParse(bs, clock) ==> r.events == s.events)
            && (AllDatesParse(bs, clock) && |bs| > 0 && RegisteredCount(bs[0]) > 0 && s.registrations == [] ==>
                  !Accounted(r))
  {
    var r := LoadEvents(LoadEvents(s, Delivered(bs), clock), Failed, clock);
    ConvertedWithinCapacity(bs, clock);
    if AllDatesParse(bs, clock) && |bs| > 0 && RegisteredCount(bs[0]) > 0 && s.registrations == [] {
      assert ConvertBackendEvent(bs[0], clock) == Some(r.events[0]);
      assert r.events[0].registered == RegisteredCount(bs[0]);
      assert ActiveCount(r.registrations, r.events[0].id) == 0;
    }
  }

  // ------------------------------------------------------ consequences

  /** No double registration: right after a successful registration the
      same pair is refused. */
  lemma RegisterTwiceRefused(s: Store, eventId: string, userId: string, id1: string, at1: string, id2: string, at2: string)
    requires RegisterLocal(s, eventId, userId, id1, at1).ok
    ensures var once := RegisterLocal(s, eventId, userId, id1, at1).store;
            var twice := RegisterLocal(once, eventId, userId, id2, at2);
            !twice.ok && twice.store == once
  {
    var once := RegisterLocal(s, eventId, userId, id1, at1).store;
    assert ActiveFor(once.registrations[|s.registrations|], eventId, userId);
  }

  /** Round trip: the event local `addEvent` creates under a fresh id is
      what `getEventById` then returns. */
  lemma AddThenGet(s: Store, d: EventDraft, freshId: string)
    requires !HasEvent(s.events, freshId)
    ensures var e := GetEventById(AddEventLocal(s, d, freshId).events, freshId);
            && e.Some? && e.value.id == freshId && CarriesDraft(e.value, d)
            && e.value.registered == 0 && e.value.status == Upcoming
  {
    var events := AddEventLocal(s, d, freshId).events;
    forall k | 0 <= k < |s.events|
      ensures events[k].id != freshId
    {
      assert events[k] == s.events[k];
    }
  }

  /** After a delete no user's registration list mentions the event. */
  lemma DeleteHidesRegistrations(s: Store, id: string, userId: string)
    ensures forall x :: x in GetUserRegistrations(DeleteEventLocal(s, id).registrations, userId) ==> x.eventId != id
  {
  }

  /** The code decrements on cancel even for a user who holds no active
      registration, so the accounting invariant does not survive such a
      cancel: here one user's cancel for an event they never joined wipes
      out another user's counted place. */
  lemma CancelWithoutRegistrationMiscounts()
    ensures var s := Store(
              [Event("e1", "Meetup", "", "2025-01-01", "18:00", "Hall", Meetup, 2, 1,
                     None, "o1", "Org", Upcoming, 0.0, [])],
              [Registration("r1", "e1", "u1", "t0", Confirmed)],
              false, false);
            var r := CancelRegistration(s, "e1", "u2");
            && Valid(s) && !IsUserRegistered(s.registrations, "e1", "u2")
            && r.events[0].registered == 0
            && ActiveCount(r.registrations, "e1") == 1
            && !Accounted(r)
  {
    var s := Store(
      [Event("e1", "Meetup", "", "2025-01-01", "18:00", "Hall", Meetup, 2, 1,
             None, "o1", "Org", Upcoming, 0.0, [])],
      [Registration("r1", "e1", "u1", "t0", Confirmed)],
      false, false);
    assert HasEvent(s.events, "e1");
    var r := CancelRegistration(s, "e1", "u2");
    assert r.registrations[0] == s.registrations[0];
    assert r.registrations[1..] == [];
  }
}

=== FILE: login_page.dfy ===
/** The sign-in / sign-up page (`components/auth/login-page.tsx`): what one
    submit does. Sign-in calls `login` straight away; sign-up checks the
    name, the email and the password, in that order, stops at the first
    failure with its message, and calls `register` only when all pass. */
module LoginPage {
  import opened Types
  import opened Text

  const NameRequired := "Name is required"
  const EmailRequired := "Email is required"
  const PasswordTooShort := "Password must be at least 6 characters"

  /** The shortest password sign-up accepts. */
  const MinPasswordLength := 6

  /** The call a submit makes, if any. */
  datatype Call =
    | NoCall
    | CallLogin(email: string, password: string)
    | CallRegister(name: string, email: string, password: string, role: Role)

  /** The error shown after the submit, and the call it made. */
  datatype Submission = Submission(error: string, call: Call)

  /** The sign-up checks all pass. */
  predicate SignUpAcceptable(name: string, email: string, password: string) {
    !IsBlank(name) && !IsBlank(email) && |password| >= MinPasswordLength
  }

  /** `handleSubmit`. The error is cleared first; only a failed sign-up
      check sets it again. */
  function HandleSubmit(isLogin: bool, name: string, email: string, password: string, role: Role): (r: Submission)
    ensures isLogin ==> r == Submission("", CallLogin(email, password))
    ensures r.call.CallRegister? <==> !isLogin && SignUpAcceptable(name, email, password)
    ensures r.call.CallRegister? ==> r.call == CallRegister(name, email, password, role) && r.error == ""
    ensures r.error == NameRequired <==> !isLogin && IsBlank(name)
    ensures r.error == EmailRequired <==> !isLogin && !IsBlank(name) && IsBlank(email)
    ensures r.error == PasswordTooShort <==>
              !isLogin && !IsBlank(name) && !IsBlank(email) && |password| < MinPasswordLength
    ensures r.error != "" <==> r.call.NoCall?
  {
    if isLogin then Submission("", CallLogin(email, password))
    else if Trim(name) == "" then Submission(NameRequired, NoCall)
    else if Trim(email) == "" then Submission(EmailRequired, NoCall)
    else if |password| < MinPasswordLength then Submission(PasswordTooShort, NoCall)
    else Submission("", CallRegister(name, email, password, role))
  }

  /** A submit sets at most one message, and only one of the three checks'
      messages. */
  lemma OneErrorAtMost(isLogin: bool, name: string, email: string, password: string, role: Role)
    ensures var e := HandleSubmit(isLogin, name, email, password, role).error;
            e == "" || e == NameRequired || e == EmailRequired || e == PasswordTooShort
  {
  }
}

=== FILE: my_registrations.dfy ===
/** The attendee's own list (`components/dashboard/my-registrations.tsx`):
    the user's active registrations joined to the catalogue, and the
    cancel handler that also closes the detail view of the cancelled
    event. */
module MyRegistrations {
  import opened Types
  import opened Store
  import opened Invariants

  /** `regs.map(r => getEventById(r.eventId)).filter(Boolean)`: the event
      of each registration, in registration order, skipping registrations
      whose event is gone. */
  function JoinEvents(regs: seq<Registration>, events: seq<Event>): (r: seq<Event>)
    ensures |r| <= |regs|
    ensures forall i :: 0 <= i < |r| ==> r[i] in events
  {
    if |regs| == 0 then []
    else
      var rest := JoinEvents(regs[1..], events);
      match GetEventById(events, regs[0].eventId)
      case Some(e) =>
        var r := [e] + rest;
        assert forall i :: 1 <= i < |r| ==> r[i] == rest[i - 1];
        r
      case None => rest
  }

  /** Every event on the joined list is the event of some registration. */
  lemma {:induction false} JoinedFromRegistrations(regs: seq<Registration>, events: seq<Event>)
    ensures forall i :: 0 <= i < |JoinEvents(regs, events)| ==>
              exists k :: 0 <= k < |regs| && regs[k].eventId == JoinEvents(regs, events)[i].id
    decreases |regs|
  {
    if |regs| > 0 {
      var r := JoinEvents(regs, events);
      var rest := JoinEvents(regs[1..], events);
      JoinedFromRegistrations(regs[1..], events);
      forall i | 0 <= i < |r|
        ensures exists k :: 0 <= k < |regs| && regs[k].eventId == r[i].id
      {
        if GetEventById(events, regs[0].eventId).Some? && i == 0 {
          assert regs[0].eventId == r[0].id;
        } else {
          var j := if GetEventById(events, regs[0].eventId).Some? then i - 1 else i;
          assert r[i] == rest[j];
          assert exists k :: 0 <= k < |regs[1..]| && regs[1..][k].eventId == rest[j].id;
          var k :| 0 <= k < |regs[1..]| && regs[1..][k].eventId == rest[j].id;
          assert regs[k + 1] == regs[1..][k];
        }
      }
    } else {
      assert JoinEvents(regs, events) == [];
    }
  }

  /** The join distributes over concatenation of registration lists. */
  lemma {:induction false} JoinAppend(a: seq<Registration>, b: seq<Registration>, events: seq<Event>)
    ensures JoinEvents(a + b, events) == JoinEvents(a, events) + JoinEvents(b, events)
    decreases |a|
  {
    if |a| > 0 {
      assert (a + b)[1..] == a[1..] + b;
      JoinAppend(a[1..], b, events);
    } else {
      assert a + b == b;
    }
  }

  /** A registration whose event is not in the catalogue adds nothing. */
  lemma JoinDropsMissing(regs: seq<Registration>, x: Registration, events: seq<Event>)
    requires !HasEvent(events, x.eventId)
    ensures JoinEvents(regs + [x], events) == JoinEvents(regs, events)
  {
    JoinAppend(regs, [x], events);
    assert JoinEvents([x][1..], events) == [];
  }

  /** When every registration's event exists, the join shows one event per
      registration, the one `getEventById` finds. */
  lemma {:induction false} JoinFindsAll(regs: seq<Registration>, events: seq<Event>)
    requires forall k :: 0 <= k < |regs| ==> HasEvent(events, regs[k].eventId)
    ensures |JoinEvents(regs, events)| == |regs|
    ensures forall k :: 0 <= k < |regs| ==> Some(JoinEvents(regs, events)[k]) == GetEventById(events, regs[k].eventId)
    decreases |regs|
  {
    if |regs| > 0 {
      assert forall k :: 0 <= k < |regs[1..]| ==> regs[1..][k] == regs[k + 1];
      JoinFindsAll(regs[1..], events);
    }
  }

  /** Every registration in `regs` names an event of the catalogue. */
  predicate AllFound(regs: seq<Registration>, events: seq<Event>) {
    forall k :: 0 <= k < |regs| ==> HasEvent(events, regs[k].eventId)
  }

  /** `JoinFindsAll`, for use where its precondition may not hold. */
  lemma JoinFindsAllWhenFound(regs: seq<Registration>, events: seq<Event>)
    ensures AllFound(regs, events) ==>
      && |JoinEvents(regs, events)| == |regs|
      && forall k :: 0 <= k < |regs| ==> Some(JoinEvents(regs, events)[k]) == GetEventById(events, regs[k].eventId)
  {
    if AllFound(regs, events) {
      JoinFindsAll(regs, events);
    }
  }

  /** The events on the user's list. When every active registration of
      the user names an event, entry `k` is the event of the user's `k`-th
      active registration. */
  function RegisteredEvents(s: Store, userId: string): (r: seq<Event>)
    ensures |r| <= |GetUserRegistrations(s.registrations, userId)|
    ensures forall i :: 0 <= i < |r| ==> r[i] in s.events && IsUserRegistered(s.registrations, r[i].id, userId)
    ensures var mine := GetUserRegistrations(s.registrations, userId);
            AllFound(mine, s.events) ==>
              && |r| == |mine|
              && forall k :: 0 <= k < |mine| ==> Some(r[k]) == GetEventById(s.events, mine[k].eventId)
  {
    var mine := GetUserRegistrations(s.registrations, userId);
    var r := JoinEvents(mine, s.events);
    JoinedFromRegistrations(mine, s.events);
    JoinFindsAllWhenFound(mine, s.events);
    forall i | 0 <= i < |r|
      ensures IsUserRegistered(s.registrations, r[i].id, userId)
    {
      var k :| 0 <= k < |mine| && mine[k].eventId == r[i].id;
      assert mine[k] in mine;
      var j :| 0 <= j < |s.registrations| && s.registrations[j] == mine[k];
      assert ActiveFor(s.registrations[j], r[i].id, userId);
    }
    r
  }

  /** In a store whose registrations all name events, the list shows
      exactly one event per active registration of the user. */
  lemma ShowsEveryRegistration(s: Store, userId: string)
    requires ReferencesEvents(s)
    ensures |RegisteredEvents(s, userId)| == |GetUserRegistrations(s.registrations, userId)|
    ensures forall k :: 0 <= k < |GetUserRegistrations(s.registrations, userId)| ==>
      Some(RegisteredEvents(s, userId)[k]) == GetEventById(s.events, GetUserRegistrations(s.registrations, userId)[k].eventId)
  {
    var mine := GetUserRegistrations(s.registrations, userId);
    forall k | 0 <= k < |mine|
      ensures HasEvent(s.events, mine[k].eventId)
    {
      assert mine[k] in mine;
      var j :| 0 <= j < |s.registrations| && s.registrations[j] == mine[k];
    }
    assert AllFound(mine, s.events);
  }

  /** The list view after a cancel, with the event open in the detail
      view, if any. */
  datatype View = View(store: Store, selected: Option<Event>)

  /** `handleCancel`: cancels the user's registration for the event and
      closes the detail view exactly when it shows that event. */
  function HandleCancel(v: View, user: User, eventId: string): (r: View)
    ensures r.store == CancelRegistration(v.store, eventId, user.id)
    ensures r.selected.None? <==> v.selected.None? || v.selected.value.id == eventId
    ensures r.selected.Some? ==> r.selected == v.selected
  {
    var selected := if v.selected.Some? && v.selected.value.id == eventId then None else v.selected;
    View(CancelRegistration(v.store, eventId, user.id), selected)
  }

  /** After the cancel the event no longer appears on the user's list. */
  lemma CancelledEventLeavesList(v: View, user: User, eventId: string)
    ensures forall e :: e in RegisteredEvents(HandleCancel(v, user, eventId).store, user.id) ==> e.id != eventId
  {
    var s := HandleCancel(v, user, eventId).store;
    var shown := RegisteredEvents(s, user.id);
    forall e | e in shown
      ensures e.id != eventId
    {
      var i :| 0 <= i < |shown| && shown[i] == e;
      assert IsUserRegistered(s.registrations, e.id, user.id);
    }
  }
}

=== FILE: scenarios.dfy ===
/** Worked runs of the store on concrete data: a two-seat event filled,
    refused, freed and refilled, a deletion that takes its registrations
    with it, and a backend date that does not parse. */
module Scenarios {
  import opened Types
  import opened Store
  import opened Backend

  /** A two-seat event nobody has registered for yet. */
  function TwoSeats(): (e: Event)
    ensures e.capacity == 2 && e.registered == 0 && e.id == "e1"
  {
    Event("e1", "Meetup", "Monthly meetup", "2025-01-01", "18:00", "Hall", Meetup,
          2, 0, None, "o1", "Olga", EventStatus.Upcoming, 0.0, [])
  }

  /** Capacity two: u1 and u2 get in, u3 is refused with the count left at
      two; once u1 cancels, u3 gets in and the count is two again. */
  lemma CapacityTwoScenario()
    ensures var s0 := Initial([TwoSeats()]);
            var a := RegisterLocal(s0, "e1", "u1", "r1", "t1");
            var b := RegisterLocal(a.store, "e1", "u2", "r2", "t2");
            var c := RegisterLocal(b.store, "e1", "u3", "r3", "t3");
            var d := CancelRegistration(c.store, "e1", "u1");
            var f := RegisterLocal(d, "e1", "u3", "r4", "t4");
            && a.ok && a.store.events[0].registered == 1
            && b.ok && b.store.events[0].registered == 2
            && !c.ok && c.store.events[0].registered == 2
            && d.events[0].registered == 1
            && f.ok && f.store.events[0].registered == 2
  {
    var s0 := Initial([TwoSeats()]);
    assert FirstWithId(s0.events, "e1", 0);
    var a := RegisterLocal(s0, "e1", "u1", "r1", "t1");
    assert a.ok;
    assert FirstWithId(a.store.events, "e1", 0);
    assert !IsUserRegistered(a.store.registrations, "e1", "u2");
    var b := RegisterLocal(a.store, "e1", "u2", "r2", "t2");
    assert b.ok;
    var c := RegisterLocal(b.store, "e1", "u3", "r3", "t3");
    assert FirstWithId(b.store.events, "e1", 0);
    assert !c.ok;
    var d := CancelRegistration(c.store, "e1", "u1");
    assert FirstWithId(d.events, "e1", 0);
    assert !IsUserRegistered(d.registrations, "e1", "u3");
    var f := RegisterLocal(d, "e1", "u3", "r4", "t4");
    assert f.ok;
  }

  /** Deleting an event with two registrations leaves neither user an
      active registration, and the event can no longer be found. */
  lemma DeleteCascadeScenario()
    ensures var s0 := Initial([TwoSeats().(capacity := 5)]);
            var a := RegisterLocal(s0, "e1", "u1", "r1", "t1");
            var b := RegisterLocal(a.store, "e1", "u2", "r2", "t2");
            var g := DeleteEventLocal(b.store, "e1");
            && b.ok && b.store.events[0].registered == 2
            && GetUserRegistrations(g.registrations, "u1") == []
            && GetUserRegistrations(g.registrations, "u2") == []
            && GetEventById(g.events, "e1").None?
  {
    var s0 := Initial([TwoSeats().(capacity := 5)]);
    assert FirstWithId(s0.events, "e1", 0);
    var a := RegisterLocal(s0, "e1", "u1", "r1", "t1");
    assert a.ok;
    assert FirstWithId(a.store.events, "e1", 0);
    assert !IsUserRegistered(a.store.registrations, "e1", "u2");
    var b := RegisterLocal(a.store, "e1", "u2", "r2", "t2");
    assert b.ok;
    var g := DeleteEventLocal(b.store, "e1");
    assert forall x :: x in b.store.registrations ==> x.eventId == "e1";
    assert g.registrations == [];
  }

  /** A clock on which the one date "soon" does not parse. */
  function SoonClock(): (c: Clock)
    ensures c.isoDay("soon").None? && c.isoDay("2025-01-01") == Some("2025-01-01")
  {
    Clock(d => if d == "soon" then None else Some(d), d => true)
  }

  /** A backend event whose date is "soon". */
  function SoonEvent(): (b: BackendEvent)
    ensures b.date == "soon"
  {
    BackendEvent("b1", "Launch", "Product launch", "soon", "Hall", "meetup", "18:00",
                 None, None, ById("o1"), None)
  }

  /** A backend session receives a list holding an unparsable date: the
      load falls back to local mode with the events it had, and creating
      that event is rejected with nothing appended. */
  lemma UnparsableDateScenario()
    ensures var s0 := Initial([TwoSeats()]).(useBackend := true);
            var draft := EventDraft("Launch", "Product launch", "soon", "18:00", "Hall", Meetup,
                                    10, 0.0, [], "o1", "Olga", None);
            var loaded := LoadEvents(s0, Delivered([SoonEvent()]), SoonClock());
            var added := AddEvent(s0, draft, "x", Delivered(SoonEvent()), SoonClock());
            && !loaded.useBackend && loaded.events == [TwoSeats()]
            && added.rejected && added.store == s0
  {
    assert !DateParses([SoonEvent()][0], SoonClock());
  }
}

=== FILE: seqs.dfy ===
/** Order-preserving selection over sequences: `Array.prototype.filter`,
    and the facts the store needs about it. */
module Seqs {

  /** `a` is `b` with some elements left out, the rest in their order. */
  predicate IsSubseq<T(==)>(a: seq<T>, b: seq<T>)
    decreases |b|
  {
    |a| == 0 || (|b| > 0 && ((a[0] == b[0] && IsSubseq(a[1..], b[1..])) || IsSubseq(a, b[1..])))
  }

  /** `rel` holds of every pair taken in sequence order. */
  ghost predicate Pairwise<T>(s: seq<T>, rel: (T, T) -> bool) {
    forall i, j :: 0 <= i < j < |s| ==> rel(s[i], s[j])
  }

  /** `s.filter(keep)`: an order-preserving subsequence of `s` holding
      the elements that satisfy `keep` and nothing else. */
  function Filter<T(==,!new)>(s: seq<T>, keep: T -> bool): (r: seq<T>)
    ensures |r| <= |s|
    ensures IsSubseq(r, s)
    ensures forall x :: x in r <==> x in s && keep(x)
  {
    if |s| == 0 then []
    else
      var rest := Filter(s[1..], keep);
      assert s == [s[0]] + s[1..];
      if keep(s[0]) then
        assert ([s[0]] + rest)[1..] == rest;
        [s[0]] + rest
      else rest
  }

  /** Filtering keeps every element that satisfies `keep` exactly as
      often as `s` holds it, and drops the others entirely. */
  lemma {:induction false} FilterCounts<T(!new)>(s: seq<T>, keep: T -> bool)
    ensures forall x :: multiset(Filter(s, keep))[x] == if keep(x) then multiset(s)[x] else 0
    decreases |s|
  {
    if |s| > 0 {
      FilterCounts(s[1..], keep);
      assert s == [s[0]] + s[1..];
    }
  }

  /** Filtering keeps everything when every element passes. */
  lemma {:induction false} FilterAll<T(!new)>(s: seq<T>, keep: T -> bool)
    requires forall i :: 0 <= i < |s| ==> keep(s[i])
    ensures Filter(s, keep) == s
    decreases |s|
  {
    if |s| > 0 {
      FilterAll(s[1..], keep);
      assert [s[0]] + s[1..] == s;
    }
  }

  /** Prepending `x` keeps a pairwise relation when `x` relates to everything after it. */
  lemma PairwiseCons<T>(x: T, t: seq<T>, rel: (T, T) -> bool)
    requires Pairwise(t, rel)
    requires forall k :: 0 <= k < |t| ==> rel(x, t[k])
    ensures Pairwise([x] + t, rel)
  {
    var r := [x] + t;
    forall i, j | 0 <= i < j < |r|
      ensures rel(r[i], r[j])
    {
      if i == 0 {
        assert r[j] == t[j - 1];
      } else {
        assert r[i] == t[i - 1] && r[j] == t[j - 1];
      }
    }
  }

  /** A relation that holds pairwise on `s` still holds on any filtering of it. */
  lemma {:induction false} FilterPairwise<T(!new)>(s: seq<T>, keep: T -> bool, rel: (T, T) -> bool)
    requires Pairwise(s, rel)
    ensures Pairwise(Filter(s, keep), rel)
    decreases |s|
  {
    if |s| > 0 {
      var t := s[1..];
      assert Pairwise(t, rel) by {
        forall i, j | 0 <= i < j < |t|
          ensures rel(t[i], t[j])
        {
          assert t[i] == s[i + 1] && t[j] == s[j + 1];
        }
      }
      FilterPairwise(t, keep, rel);
      var rest := Filter(t, keep);
      if keep(s[0]) {
        forall k | 0 <= k < |rest|
          ensures rel(s[0], rest[k])
        {
          assert rest[k] in t;
          var m :| 0 <= m < |t| && t[m] == rest[k];
          assert s[m + 1] == t[m];
        }
        PairwiseCons(s[0], rest, rel);
      }
    }
  }
}

=== FILE: store.dfy ===
/** The event store of `lib/event-context.tsx`: the `events` and
    `registrations` collections, the local transitions that change them,
    the read queries, and the switch between local and backend mode.
    Each command is one atomic transition from a store to a store; the
    backend is seen only through the outcome of each call. */
module Store {
  import opened Types
  import opened Seqs
  import opened Backend

  datatype Store = Store(
    events: seq<Event>,
    registrations: seq<Registration>,
    useBackend: bool,
    isLoading: bool)

  /** The provider's first state: the seed catalogue, no registrations,
      local mode, nothing loading. */
  function Initial(seed: seq<Event>): Store {
    Store(seed, [], false, false)
  }

  /** What `addEvent` is given: an event without id, count and status. */
  datatype EventDraft = EventDraft(
    title: string,
    description: string,
    date: string,
    time: string,
    location: string,
    category: EventCategory,
    capacity: int,
    price: real,
    tags: seq<string>,
    organizerId: string,
    organizerName: string,
    image: Option<string>)

  /** `e` holds every field of the draft `d` unchanged. */
  predicate CarriesDraft(e: Event, d: EventDraft) {
    && e.title == d.title && e.description == d.description
    && e.date == d.date && e.time == d.time && e.location == d.location
    && e.category == d.category && e.capacity == d.capacity && e.price == d.price
    && e.tags == d.tags && e.organizerId == d.organizerId
    && e.organizerName == d.organizerName && e.image == d.image
  }

  /** `Partial<Event>`: the fields an update overlays. An image may be
      overlaid with a value or with `undefined`. */
  datatype EventPatch = EventPatch(
    id: Option<string>,
    title: Option<string>,
    description: Option<string>,
    date: Option<string>,
    time: Option<string>,
    location: Option<string>,
    category: Option<EventCategory>,
    capacity: Option<int>,
    registered: Option<int>,
    image: Option<Option<string>>,
    organizerId: Option<string>,
    organizerName: Option<string>,
    status: Option<EventStatus>,
    price: Option<real>,
    tags: Option<seq<string>>)

  const EmptyPatch := EventPatch(None, None, None, None, None, None, None, None, None, None, None, None, None, None, None)

  /** The outcome of one backend call. */
  datatype Remote<T> = Delivered(value: T) | Failed

  /** The store after a command, and whether the command's promise was rejected. */
  datatype Reply = Reply(store: Store, rejected: bool)

  /** The store after `registerForEvent`, and its boolean result. */
  datatype RegisterReply = RegisterReply(ok: bool, store: Store)

  // ---------------------------------------------------------------- queries

  /** No event holds more registrations than seats, and none holds a
      negative count. */
  predicate WithinCapacity(events: seq<Event>) {
    forall i :: 0 <= i < |events| ==> 0 <= events[i].registered <= events[i].capacity
  }

  /** Some event carries the id. */
  predicate HasEvent(events: seq<Event>, id: string) {
    exists i :: 0 <= i < |events| && events[i].id == id
  }

  /** `i` is the first position holding the id. */
  predicate FirstWithId(events: seq<Event>, id: string, i: int) {
    && 0 <= i < |events| && events[i].id == id
    && forall j :: 0 <= j < i ==> events[j].id != id
  }

  /** `getEventById` (`events.find`): the first event with the id, if any. */
  function GetEventById(events: seq<Event>, id: string): (r: Option<Event>)
    ensures r.None? <==> !HasEvent(events, id)
    ensures r.Some? ==> exists i :: FirstWithId(events, id, i) && events[i] == r.value
  {
    if |events| == 0 then None
    else if events[0].id == id then
      assert FirstWithId(events, id, 0);
      Some(events[0])
    else
      var r := GetEventById(events[1..], id);
      if r.Some? then
        var i :| FirstWithId(events[1..], id, i) && events[1..][i] == r.value;
        assert FirstWithId(events, id, i + 1);
        r
      else
        assert forall k :: 1 <= k < |events| ==> events[k] == events[1..][k - 1];
        r
  }

  function OrganizedBy(organizerId: string): Event -> bool {
    (e: Event) => e.organizerId == organizerId
  }

  /** `getEventsByOrganizer`: exactly the organizer's events, in order. */
  function GetEventsByOrganizer(events: seq<Event>, organizerId: string): (r: seq<Event>)
    ensures IsSubseq(r, events)
    ensures forall e :: e in r <==> e in events && e.organizerId == organizerId
  {
    Filter(events, OrganizedBy(organizerId))
  }

  /** The organizer's events appear exactly as often as in the catalogue. */
  lemma OrganizerEventCounts(events: seq<Event>, organizerId: string)
    ensures forall e :: multiset(GetEventsByOrganizer(events, organizerId))[e] ==
                        if e.organizerId == organizerId then multiset(events)[e] else 0
  {
    FilterCounts(events, OrganizedBy(organizerId));
  }

  function ActiveOf(userId: string): Registration -> bool {
    (r: Registration) => r.userId == userId && Active(r)
  }

  /** `getUserRegistrations`: the user's active registrations, in order. */
  function GetUserRegistrations(regs: seq<Registration>, userId: string): (r: seq<Registration>)
    ensures IsSubseq(r, regs)
    ensures forall x :: x in r <==> x in regs && x.userId == userId && Active(x)
  {
    Filter(regs, ActiveOf(userId))
  }

  /** Each of the user's active registrations appears as often as in the
      full list, every other registration not at all. */
  lemma UserRegistrationCounts(regs: seq<Registration>, userId: string)
    ensures forall x :: multiset(GetUserRegistrations(regs, userId))[x] ==
                        if x.userId == userId && Active(x) then multiset(regs)[x] else 0
  {
    FilterCounts(regs, ActiveOf(userId));
  }

  /** `isUserRegistered`: the user holds an active registration for the event. */
  predicate IsUserRegistered(regs: seq<Registration>, eventId: string, userId: string) {
    exists i :: 0 <= i < |regs| && ActiveFor(regs[i], eventId, userId)
  }

  /** `isUserRegistered` agrees with the user's registration list. */
  lemma RegisteredIffListed(regs: seq<Registration>, eventId: string, userId: string)
    ensures IsUserRegistered(regs, eventId, userId)
        <==> exists x :: x in GetUserRegistrations(regs, userId) && x.eventId == eventId
  {
    var mine := GetUserRegistrations(regs, userId);
    if IsUserRegistered(regs, eventId, userId) {
      var i :| 0 <= i < |regs| && ActiveFor(regs[i], eventId, userId);
      assert regs[i] in mine;
    }
  }

  // ------------------------------------------------------- local transitions

  /** The event `addEvent` builds from a draft in local mode. */
  function NewEvent(d: EventDraft, id: string): Event {
    Event(id, d.title, d.description, d.date, d.time, d.location, d.category,
          d.capacity, 0, d.image, d.organizerId, d.organizerName, Upcoming, d.price, d.tags)
  }

  /** Local `addEvent`: appends exactly one event carrying the draft, the
      given id, no registrations and status upcoming; earlier events and
      everything else stay as they were. */
  function AddEventLocal(s: Store, d: EventDraft, freshId: string): (r: Store)
    ensures |r.events| == |s.events| + 1 && r.events[..|s.events|] == s.events
    ensures CarriesDraft(r.events[|s.events|], d)
    ensures r.events[|s.events|].id == freshId
    ensures r.events[|s.events|].registered == 0 && r.events[|s.events|].status == Upcoming
    ensures r == s.(events := r.events)
  {
    s.(events := s.events + [NewEvent(d, freshId)])
  }

  /** `{ ...e, ...updates }`. */
  function Overlay(e: Event, p: EventPatch): Event {
    Event(
      id := if p.id.Some? then p.id.value else e.id,
      title := if p.title.Some? then p.title.value else e.title,
      description := if p.description.Some? then p.description.value else e.description,
      date := if p.date.Some? then p.date.value else e.date,
      time := if p.time.Some? then p.time.value else e.time,
      location := if p.location.Some? then p.location.value else e.location,
      category := if p.category.Some? then p.category.value else e.category,
      capacity := if p.capacity.Some? then p.capacity.value else e.capacity,
      registered := if p.registered.Some? then p.registered.value else e.registered,
      image := if p.image.Some? then p.image.value else e.image,
      organizerId := if p.organizerId.Some? then p.organizerId.value else e.organizerId,
      organizerName := if p.organizerName.Some? then p.organizerName.value else e.organizerName,
      status := if p.status.Some? then p.status.value else e.status,
      price := if p.price.Some? then p.price.value else e.price,
      tags := if p.tags.Some? then p.tags.value else e.tags)
  }

  /** Overlaying the empty patch changes nothing, and overlaying the same
      patch twice is the same as once. */
  lemma OverlayLaws(e: Event, p: EventPatch)
    ensures Overlay(e, EmptyPatch) == e
    ensures Overlay(Overlay(e, p), p) == Overlay(e, p)
  {
  }

  /** `updateEvent`: every event with the id gets the patch overlaid; all
      others stay, in the same order; registrations and mode stay. */
  function UpdateEvent(s: Store, id: string, p: EventPatch): (r: Store)
    ensures |r.events| == |s.events|
    ensures forall i :: 0 <= i < |s.events| && s.events[i].id == id ==> r.events[i] == Overlay(s.events[i], p)
    ensures forall i :: 0 <= i < |s.events| && s.events[i].id != id ==> r.events[i] == s.events[i]
    ensures r == s.(events := r.events)
  {
    s.(events := seq(|s.events|, i requires 0 <= i < |s.events| =>
                      if s.events[i].id == id then Overlay(s.events[i], p) else s.events[i]))
  }

  /** An update for an id nobody carries leaves the store as it is. */
  lemma UpdateUnknownIsNoop(s: Store, id: string, p: EventPatch)
    requires !HasEvent(s.events, id)
    ensures UpdateEvent(s, id, p) == s
  {
    assert UpdateEvent(s, id, p).events == s.events;
  }

  /** Repeating an update changes nothing more. */
  lemma UpdateIdempotent(s: Store, id: string, p: EventPatch)
    ensures UpdateEvent(UpdateEvent(s, id, p), id, p) == UpdateEvent(s, id, p)
  {
    var once := UpdateEvent(s, id, p);
    var twice := UpdateEvent(once, id, p);
    forall i | 0 <= i < |s.events|
      ensures twice.events[i] == once.events[i]
    {
      OverlayLaws(s.events[i], p);
    }
    assert twice.events == once.events;
  }

  function OtherEvent(id: string): Event -> bool {
    (e: Event) => e.id != id
  }

  function OtherEventsRegistration(id: string): Registration -> bool {
    (r: Registration) => r.eventId != id
  }

  /** Local `deleteEvent`: removes the event and physically removes every
      registration for it; all other entries stay, in order. */
  function DeleteEventLocal(s: Store, id: string): (r: Store)
    ensures !HasEvent(r.events, id)
    ensures forall i :: 0 <= i < |r.registrations| ==> r.registrations[i].eventId != id
    ensures IsSubseq(r.events, s.events) && IsSubseq(r.registrations, s.registrations)
    ensures forall e :: e in r.events <==> e in s.events && e.id != id
    ensures forall x :: x in r.registrations <==> x in s.registrations && x.eventId != id
    ensures r.useBackend == s.useBackend && r.isLoading == s.isLoading
  {
    var events := Filter(s.events, OtherEvent(id));
    var regs := Filter(s.registrations, OtherEventsRegistration(id));
    forall i | 0 <= i < |events|
      ensures events[i].id != id
    {
      assert events[i] in events;
    }
    forall i | 0 <= i < |regs|
      ensures regs[i].eventId != id
    {
      assert regs[i] in regs;
    }
    s.(events := events, registrations := regs)
  }

  /** Deleting keeps every other event and every registration for another
      event exactly as often as before. */
  lemma DeleteEventCounts(s: Store, id: string)
    ensures var r := DeleteEventLocal(s, id);
            && (forall e :: multiset(r.events)[e] == if e.id != id then multiset(s.events)[e] else 0)
            && (forall x :: multiset(r.registrations)[x] == if x.eventId != id then multiset(s.registrations)[x] else 0)
  {
    FilterCounts(s.events, OtherEvent(id));
    FilterCounts(s.registrations, OtherEventsRegistration(id));
  }

  /** Local `registerForEvent`. It fails, changing nothing, when no event
      has the id, when the first such event is full, or when the user
      already holds an active registration for it. Otherwise it appends one
      confirmed registration and adds exactly one to the count of the
      events with that id. */
  function RegisterLocal(s: Store, eventId: string, userId: string, regId: string, registeredAt: string): (r: RegisterReply)
    ensures r.ok <==>
      && (exists i :: FirstWithId(s.events, eventId, i) && s.events[i].registered < s.events[i].capacity)
      && !(exists k :: 0 <= k < |s.registrations| && ActiveFor(s.registrations[k], eventId, userId))
    ensures !r.ok ==> r.store == s
    ensures r.ok ==> r.store.registrations == s.registrations + [Registration(regId, eventId, userId, registeredAt, Confirmed)]
    ensures r.ok ==> |r.store.events| == |s.events|
    ensures r.ok ==> forall i :: 0 <= i < |s.events| && s.events[i].id == eventId ==>
                       r.store.events[i] == s.events[i].(registered := s.events[i].registered + 1)
    ensures r.ok ==> forall i :: 0 <= i < |s.events| && s.events[i].id != eventId ==> r.store.events[i] == s.events[i]
    ensures r.store.useBackend == s.useBackend && r.store.isLoading == s.isLoading
  {
    match GetEventById(s.events, eventId)
    case None => RegisterReply(false, s)
    case Some(event) =>
      if event.registered >= event.capacity || IsUserRegistered(s.registrations, eventId, userId) then
        assert forall i :: FirstWithId(s.events, eventId, i) ==> s.events[i] == event by {
          var j :| FirstWithId(s.events, eventId, j) && s.events[j] == event;
          forall i | FirstWithId(s.events, eventId, i) ensures i == j {
            FirstWithIdUnique(s.events, eventId, i, j);
          }
        }
        RegisterReply(false, s)
      else
        var reg := Registration(regId, eventId, userId, registeredAt, Confirmed);
        RegisterReply(true, s.(events := CountOneMore(s.events, eventId), registrations := s.registrations + [reg]))
  }

  /** Only one position is the first with a given id. */
  lemma FirstWithIdUnique(events: seq<Event>, id: string, i: int, j: int)
    requires FirstWithId(events, id, i) && FirstWithId(events, id, j)
    ensures i == j
  {
  }

  /** The events with one more registration counted for each event with
      the id. */
  function CountOneMore(events: seq<Event>, eventId: string): (r: seq<Event>)
    ensures |r| == |events|
    ensures forall i :: 0 <= i < |events| ==>
      r[i] == if events[i].id == eventId then events[i].(registered := events[i].registered + 1) else events[i]
  {
    seq(|events|, i requires 0 <= i < |events| =>
        if events[i].id == eventId then events[i].(registered := events[i].registered + 1) else events[i])
  }

  /** Marks every registration of `userId` for `eventId` cancelled, active
      or not, and leaves the others alone. */
  function CancelMatching(regs: seq<Registration>, eventId: string, userId: string): (r: seq<Registration>)
    ensures |r| == |regs|
    ensures forall i :: 0 <= i < |regs| ==>
      r[i] == if regs[i].eventId == eventId && regs[i].userId == userId
              then regs[i].(status := RegistrationStatus.Cancelled)
              else regs[i]
  {
    seq(|regs|, i requires 0 <= i < |regs| =>
        var x := regs[i];
        if x.eventId == eventId && x.userId == userId then x.(status := RegistrationStatus.Cancelled) else x)
  }

  /** `cancelRegistration`: the user ends with no active registration for
      the event, the status of every other registration is untouched, and
      the count of each event with that id drops by one but never below
      zero. It decrements even when the user held no active registration. */
  function CancelRegistration(s: Store, eventId: string, userId: string): (r: Store)
    ensures r.registrations == CancelMatching(s.registrations, eventId, userId)
    ensures !IsUserRegistered(r.registrations, eventId, userId)
    ensures |r.events| == |s.events|
    ensures forall i :: 0 <= i < |s.events| && s.events[i].id == eventId ==>
      && r.events[i] == s.events[i].(registered := r.events[i].registered)
      && r.events[i].registered >= 0
      && (s.events[i].registered > 0 ==> r.events[i].registered == s.events[i].registered - 1)
      && (s.events[i].registered <= 0 ==> r.events[i].registered == 0)
    ensures forall i :: 0 <= i < |s.events| && s.events[i].id != eventId ==> r.events[i] == s.events[i]
    ensures r.useBackend == s.useBackend && r.isLoading == s.isLoading
  {
    var events := seq(|s.events|, i requires 0 <= i < |s.events| =>
                      var e := s.events[i];
                      if e.id == eventId then e.(registered := if e.registered - 1 > 0 then e.registered - 1 else 0) else e);
    s.(events := events, registrations := CancelMatching(s.registrations, eventId, userId))
  }

  // ------------------------------------------------------- reloads and mode

  /** The `try` block of a reload runs to the end: the call delivered a
      list and every date in it converts. Otherwise the block throws,
      either from the call or from `convertBackendEvent`. */
  predicate LoadSucceeds(fetched: Remote<seq<BackendEvent>>, clock: Clock) {
    fetched.Delivered? && AllDatesParse(fetched.value, clock)
  }

  /** The common shape of the three reloads: a list that converts
      replaces the events wholesale; a failed call, or a list holding a
      date that does not parse, leaves them alone; loading ends. */
  function Reload(s: Store, fetched: Remote<seq<BackendEvent>>, clock: Clock): (r: Store)
    ensures LoadSucceeds(fetched, clock) ==> Some(r.events) == ConvertAll(fetched.value, clock)
    ensures !LoadSucceeds(fetched, clock) ==> r.events == s.events
    ensures r == s.(events := r.events, isLoading := false)
  {
    var converted := if fetched.Delivered? then ConvertAll(fetched.value, clock) else None;
    match converted
    case Some(es) => s.(events := es, isLoading := false)
    case None => s.(isLoading := false)
  }

  /** `loadEvents`: success replaces the events and turns backend mode on;
      a failed call or an unparsable date keeps the events and falls back
      to local mode. */
  function LoadEvents(s: Store, fetched: Remote<seq<BackendEvent>>, clock: Clock): (r: Store)
    ensures r.useBackend <==> LoadSucceeds(fetched, clock)
    ensures LoadSucceeds(fetched, clock) ==> Some(r.events) == ConvertAll(fetched.value, clock)
    ensures !LoadSucceeds(fetched, clock) ==> r.events == s.events
    ensures r.registrations == s.registrations && !r.isLoading
  {
    Reload(s, fetched, clock).(useBackend := LoadSucceeds(fetched, clock))
  }

  /** `loadMyEvents` and `loadMyRegistrations`: as `loadEvents`, but the
      mode is left as it was. */
  function LoadScoped(s: Store, fetched: Remote<seq<BackendEvent>>, clock: Clock): (r: Store)
    ensures r.useBackend == s.useBackend
    ensures LoadSucceeds(fetched, clock) ==> Some(r.events) == ConvertAll(fetched.value, clock)
    ensures !LoadSucceeds(fetched, clock) ==> r.events == s.events
    ensures r.registrations == s.registrations && !r.isLoading
  {
    Reload(s, fetched, clock)
  }

  /** The mount effect: with a stored token the store goes to backend mode
      and loads all events; without one nothing happens. */
  function Mount(s: Store, hasToken: bool, fetched: Remote<seq<BackendEvent>>, clock: Clock): (r: Store)
    ensures !hasToken ==> r == s
    ensures hasToken ==> r == LoadEvents(s, fetched, clock)
    ensures hasToken ==> r.useBackend == LoadSucceeds(fetched, clock) && r.registrations == s.registrations
    ensures hasToken && LoadSucceeds(fetched, clock) ==> Some(r.events) == ConvertAll(fetched.value, clock)
    ensures hasToken && !LoadSucceeds(fetched, clock) ==> r.events == s.events
  {
    if hasToken then LoadEvents(s.(useBackend := true), fetched, clock) else s
  }

  // ------------------------------------------------- commands with both modes

  /** `addEvent`: local mode appends the drafted event; backend mode
      appends the event the backend created, or rejects and changes
      nothing when the call fails or the created event's date does not
      convert (the `catch` rethrows). */
  function AddEvent(s: Store, d: EventDraft, freshId: string, created: Remote<BackendEvent>, clock: Clock): (r: Reply)
    ensures r.rejected <==> s.useBackend && !(created.Delivered? && DateParses(created.value, clock))
    ensures r.rejected ==> r.store == s
    ensures !s.useBackend ==> r.store == AddEventLocal(s, d, freshId)
    ensures s.useBackend && !r.rejected ==>
      |r.store.events| == |s.events| + 1
      && Some(r.store.events[|s.events|]) == ConvertBackendEvent(created.value, clock)
      && r.store == s.(events := s.events + [r.store.events[|s.events|]])
  {
    if !s.useBackend then Reply(AddEventLocal(s, d, freshId), false)
    else
      var converted := if created.Delivered? then ConvertBackendEvent(created.value, clock) else None;
      match converted
      case Some(e) => Reply(s.(events := s.events + [e]), false)
      case None => Reply(s, true)
  }

  /** `deleteEvent`: both modes apply the same removal, backend mode only
      once the backend accepted the deletion; a failed call rejects and
      changes nothing. */
  function DeleteEvent(s: Store, id: string, deleted: bool): (r: Reply)
    ensures r.rejected <==> s.useBackend && !deleted
    ensures r.rejected ==> r.store == s
    ensures !r.rejected ==> r.store == DeleteEventLocal(s, id)
  {
    if s.useBackend && !deleted then Reply(s, true) else Reply(DeleteEventLocal(s, id), false)
  }

  /** `registerForEvent`: local mode runs the checked transition; backend
      mode trusts the backend's answer with no local capacity check and,
      on acceptance, reloads all events (whose own failure still leaves
      the result true). The registrations list is never touched in
      backend mode. */
  function RegisterForEvent(s: Store, eventId: string, userId: string, regId: string, registeredAt: string,
                            accepted: bool, reload: Remote<seq<BackendEvent>>, clock: Clock): (r: RegisterReply)
    ensures !s.useBackend ==> r == RegisterLocal(s, eventId, userId, regId, registeredAt)
    ensures s.useBackend ==> r.ok == accepted && r.store.registrations == s.registrations
    ensures s.useBackend && !accepted ==> r.store == s
    ensures s.useBackend && accepted ==> r.store == LoadEvents(s, reload, clock)
  {
    if !s.useBackend then RegisterLocal(s, eventId, userId, regId, registeredAt)
    else if accepted then RegisterReply(true, LoadEvents(s, reload, clock))
    else RegisterReply(false, s)
  }
}

=== FILE: text.dfy ===
/** The string primitives the UI layer leans on: JavaScript's `trim`,
    `toLowerCase`, `includes` and `split` on a one-character separator.
    Strings are sequences of characters; there is no encoding here. */
module Text {

  /** A subset of the white-space characters `String.prototype.trim`
      strips: the ASCII ones, no-break space, the two line separators and
      the BOM. */
  const WhiteSpace: set<char> := {
    ' ', '\t', '\n', '\r', '\U{000B}', '\U{000C}', '\U{00A0}', '\U{2028}', '\U{2029}', '\U{FEFF}'
  }

  predicate IsSpace(c: char) {
    c in WhiteSpace
  }

  /** Nothing but white space: the strings for which `!s.trim()` holds. */
  predicate IsBlank(s: string) {
    forall i :: 0 <= i < |s| ==> IsSpace(s[i])
  }

  /** Neither starts nor ends with white space. */
  predicate IsTrimmed(s: string) {
    s == [] || (!IsSpace(s[0]) && !IsSpace(s[|s| - 1]))
  }

  /** Where the leading white space from index `i` on ends. */
  function SkipSpaces(s: string, i: nat): (n: nat)
    requires i <= |s|
    ensures i <= n <= |s|
    ensures forall k :: i <= k < n ==> IsSpace(s[k])
    ensures n == |s| || !IsSpace(s[n])
    decreases |s| - i
  {
    if i < |s| && IsSpace(s[i]) then SkipSpaces(s, i + 1) else i
  }

  /** Where the trailing white space before index `j`, and not below
      `lo`, begins. */
  function SkipSpacesBack(s: string, lo: nat, j: nat): (n: nat)
    requires lo <= j <= |s|
    ensures lo <= n <= j
    ensures forall k :: n <= k < j ==> IsSpace(s[k])
    ensures n == lo || !IsSpace(s[n - 1])
  {
    if lo < j && IsSpace(s[j - 1]) then SkipSpacesBack(s, lo, j - 1) else j
  }

  /** `s.trim()`: starts and ends with a non-space character, and is
      empty exactly when `s` is blank. */
  function Trim(s: string): (r: string)
    ensures IsTrimmed(r)
    ensures r == [] <==> IsBlank(s)
  {
    var a := SkipSpaces(s, 0);
    var b := SkipSpacesBack(s, a, |s|);
    s[a..b]
  }

  /** What trimming cuts away is white space at both ends: the result is
      the middle of `s` between a blank prefix and a blank suffix. */
  lemma TrimInfix(s: string)
    ensures exists a, b :: 0 <= a <= b <= |s| && Trim(s) == s[a..b] && IsBlank(s[..a]) && IsBlank(s[b..])
  {
    var a := SkipSpaces(s, 0);
    var b := SkipSpacesBack(s, a, |s|);
    assert IsBlank(s[..a]) by {
      forall i | 0 <= i < a
        ensures IsSpace(s[..a][i])
      {
        assert s[..a][i] == s[i];
      }
    }
    assert IsBlank(s[b..]) by {
      forall i | 0 <= i < |s| - b
        ensures IsSpace(s[b..][i])
      {
        assert s[b..][i] == s[b + i];
      }
    }
  }

  /** Trimming keeps only characters of its input. */
  lemma TrimKeepsChars(s: string, c: char)
    requires c in Trim(s)
    ensures c in s
  {
    var a := SkipSpaces(s, 0);
    var k :| 0 <= k < |Trim(s)| && Trim(s)[k] == c;
    assert s[a + k] == c;
  }

  /** Trimming leaves an already trimmed string alone. */
  lemma TrimTrimmed(s: string)
    requires IsTrimmed(s)
    ensures Trim(s) == s
  {
    assert SkipSpaces(s, 0) == 0;
  }

  /** `toLowerCase` on one character; only the ASCII letters are mapped. */
  function LowerChar(c: char): char {
    if 'A' <= c <= 'Z' then (c as int - 'A' as int + 'a' as int) as char else c
  }

  predicate IsLower(s: string) {
    forall i :: 0 <= i < |s| ==> LowerChar(s[i]) == s[i]
  }

  /** `s.toLowerCase()`. */
  function ToLower(s: string): (r: string)
    ensures |r| == |s| && IsLower(r)
    ensures forall i :: 0 <= i < |s| ==> r[i] == LowerChar(s[i])
  {
    seq(|s|, i requires 0 <= i < |s| => LowerChar(s[i]))
  }

  /** Lower case strings are fixed points of `toLowerCase`. */
  lemma ToLowerOfLower(s: string)
    requires IsLower(s)
    ensures ToLower(s) == s
  {
  }

  /** `s.includes(part)`: `part` occurs somewhere in `s`. */
  predicate Contains(s: string, part: string)
    decreases |s|
  {
    part <= s || (|s| > 0 && Contains(s[1..], part))
  }

  /** `part` occurs in `s` starting at index `i`. */
  predicate OccursAt(s: string, part: string, i: int) {
    0 <= i <= |s| - |part| && s[i..i + |part|] == part
  }

  /** `Contains` finds exactly the substrings of `s`. */
  lemma {:induction false} ContainsIffOccurs(s: string, part: string)
    ensures Contains(s, part) <==> exists i :: OccursAt(s, part, i)
    decreases |s|
  {
    if part <= s {
      assert OccursAt(s, part, 0);
    } else if |s| > 0 {
      ContainsIffOccurs(s[1..], part);
      if Contains(s[1..], part) {
        var i :| OccursAt(s[1..], part, i);
        assert s[1..][i..i + |part|] == s[i + 1..i + 1 + |part|];
        assert OccursAt(s, part, i + 1);
      } else if exists i :: OccursAt(s, part, i) {
        var i :| OccursAt(s, part, i);
        assert i != 0;
        assert s[1..][i - 1..i - 1 + |part|] == s[i..i + |part|];
        assert OccursAt(s[1..], part, i - 1);
      }
    }
  }

  /** Joins pieces with `sep` between them, the inverse of `Split`. */
  function Join(parts: seq<string>, sep: char): string
  {
    if |parts| == 0 then ""
    else if |parts| == 1 then parts[0]
    else parts[0] + [sep] + Join(parts[1..], sep)
  }

  /** `s.split(sep)` for a one-character separator: at least one piece,
      no piece holds the separator, and joining the pieces gives `s` back. */
  function Split(s: string, sep: char): (parts: seq<string>)
    ensures |parts| >= 1
    ensures forall i :: 0 <= i < |parts| ==> sep !in parts[i]
    ensures Join(parts, sep) == s
  {
    if |s| == 0 then [""]
    else
      var rest := Split(s[1..], sep);
      if s[0] == sep then
        assert ([""] + rest)[1..] == rest;
        [""] + rest
      else
        var parts := [[s[0]] + rest[0]] + rest[1..];
        assert parts[1..] == rest[1..];
        assert s == [s[0]] + s[1..];
        parts
  }

  /** Splitting a piece without separators yields just that piece. */
  lemma {:induction false} SplitPlain(a: string, sep: char)
    requires sep !in a
    ensures Split(a, sep) == [a]
    decreases |a|
  {
    if |a| > 0 {
      SplitPlain(a[1..], sep);
      assert [a[0]] + a[1..] == a;
    }
  }

  /** Splitting `a + sep + t` peels `a` off as the first piece. */
  lemma {:induction false} SplitAfterPiece(a: string, sep: char, t: string)
    requires sep !in a
    ensures Split(a + [sep] + t, sep) == [a] + Split(t, sep)
    decreases |a|
  {
    if |a| == 0 {
      assert a + [sep] + t == [sep] + t;
      assert ([sep] + t)[1..] == t;
    } else {
      var s := a + [sep] + t;
      assert s[1..] == a[1..] + [sep] + t;
      SplitAfterPiece(a[1..], sep, t);
      assert [a[0]] + a[1..] == a;
    }
  }

  /** Round trip: pieces free of the separator come back from `Split(Join(..))`. */
  lemma {:induction false} SplitJoin(parts: seq<string>, sep: char)
    requires |parts| >= 1
    requires forall i :: 0 <= i < |parts| ==> sep !in parts[i]
    ensures Split(Join(parts, sep), sep) == parts
    decreases |parts|
  {
    if |parts| == 1 {
      SplitPlain(parts[0], sep);
    } else {
      SplitJoin(parts[1..], sep);
      SplitAfterPiece(parts[0], sep, Join(parts[1..], sep));
      assert [parts[0]] + parts[1..] == parts;
    }
  }
}

=== FILE: types.dfy ===
/** The entities of the event catalogue (`lib/types.ts`). Every field of an
    event is required except its image, which is optional. */
module Types {

  datatype Option<T> = None | Some(value: T)

  /** The two roles a user can hold in the front end. */
  datatype Role = Organizer | Attendee

  /** The closed list of event categories; `Other` is the fallback. */
  datatype EventCategory = Conference | Workshop | Meetup | Seminar | Webinar | Social | Other

  datatype EventStatus = Upcoming | Ongoing | Completed | Cancelled

  datatype RegistrationStatus = Confirmed | Pending | Cancelled

  datatype User = User(id: string, name: string, email: string, role: Role, avatar: Option<string>)

  /** An event. Capacity and the registered count are whole numbers; the
      price is an exact decimal (a `real`). */
  datatype Event = Event(
    id: string,
    title: string,
    description: string,
    date: string,
    time: string,
    location: string,
    category: EventCategory,
    capacity: int,
    registered: int,
    image: Option<string>,
    organizerId: string,
    organizerName: string,
    status: EventStatus,
    price: real,
    tags: seq<string>)

  datatype Registration = Registration(
    id: string,
    eventId: string,
    userId: string,
    registeredAt: string,
    status: RegistrationStatus)

  /** A registration that has not been cancelled. */
  predicate Active(r: Registration) {
    r.status != RegistrationStatus.Cancelled
  }

  /** An active registration of `userId` for `eventId`: the record the
      store's duplicate check and `isUserRegistered` look for. */
  predicate ActiveFor(r: Registration, eventId: string, userId: string) {
    r.eventId == eventId && r.userId == userId && Active(r)
  }

  /** The seven categories in declaration order. */
  const AllCategories: seq<EventCategory> :=
    [Conference, Workshop, Meetup, Seminar, Webinar, Social, Other]

  /** `EventCategory` has exactly seven distinct variants. */
  lemma CategoriesEnumerated()
    ensures |AllCategories| == 7
    ensures forall c: EventCategory :: c in AllCategories
    ensures forall i, j :: 0 <= i < j < |AllCategories| ==> AllCategories[i] != AllCategories[j]
  {
    forall c: EventCategory
      ensures c in AllCategories
    {
      var k := match c
        case Conference => 0
        case Workshop => 1
        case Meetup => 2
        case Seminar => 3
        case Webinar => 4
        case Social => 5
        case Other => 6;
      assert AllCategories[k] == c;
    }
  }
}
